=== FILE: README.md ===
# Crypto trading dashboard: a verified model of its trading core

The dashboard trades USDT-margined futures on the Binance Futures testnet. Its browser side
shows prices, the account balance, open positions, orders and an activity log, taken either
from the live exchange (through a Supabase edge function and the Supabase store) or from a
local demo book. This project models the parts of it that carry logic, and proves what
they promise:

- `binance_trade.dfy` (module `BinanceTrade`), with `query.dfy`, `positions_table.dfy`,
  `exchange.dfy`, `rows.dfy` and `text.dfy`: the `binance-trade` edge function. It covers
  - the credential checks;
  - the `place_order` validation;
  - the ordered `key=value` query that is signed, with the signature appended as its last
    parameter;
  - the cancel query;
  - the `get_account` reconciliation. The balance row is replaced only when a USDT asset is
    reported. The positions table is updated by a loop that upserts a nonzero amount by
    symbol and deletes the symbol on a zero amount.
  - The store's tables are the fields of the class `Database`.
- `use_binance.dfy` (module `UseBinance`): the live data source. The class `LiveSource` holds
  the hook's state. It models
  - the position filter and normalisation;
  - the USDT balance choice;
  - order formatting;
  - the ticker patch from change notifications;
  - the connected and loading flags;
  - one toast per order command.
- `use_demo_mode.dfy` (module `UseDemoMode`): the demo source. The class `DemoSource` covers
  the initial book, the demo `placeOrder` (which prepends a MARKET order as FILLED and any
  other order as OPEN) and the demo `cancelOrder`.
- `use_trading_data.dfy` (module `UseTradingData`): the LIVE/DEMO arbiter. It is a pure
  `Step` over events, with a class `ModeArbiter` whose methods are proved against `Step`. It
  covers
  - the persisted preference;
  - the 10 s fallback timer, which is armed only in LIVE with no connection and no prices;
  - the selection of the exposed snapshot.
- `trading_logs.dfy` (module `TradingLogs`): the log panel. It covers
  - the prepend-and-cap-at-50 insert;
  - the newest-first initial load;
  - the loading flag;
  - the per-type style lookup.

Outside answers are parameters of the methods that receive them. These are the exchange's
reply (`Reply<T>`), the outcome of the store's writes (`StoreAnswers`), the result of a
function invocation (`Invoke<T>`) and the current time. The HMAC-SHA256 signer is a parameter
`sign: (string, string) -> string`, an arbitrary function of (query, secret): the model uses
only the fact that it is a function, so equal queries get equal signatures. The decimal text
of a number (`Number.prototype.toString` of a real) is the parameter `numText`. Integer
timestamps are rendered with `DecimalText`, which is proved to read back to the same number.
JavaScript's falsy values are explicit:
- an unset environment variable or a missing string is `""`;
- a missing number is `None`;
- `!x` on a number holds for `None` and `0`.

Two behaviours of the demo source are easy to misread, and the model follows the code:
- Demo `cancelOrder` has no terminal-state guard. A FILLED order with the given id is
  overwritten to CANCELED (`UseDemoMode.CancelOverwritesFilled`).
- A demo fill changes only the order list. It does not update the demo balance or positions.

## Model

The internal helper `Query.WithSignature` (the signed query text) carries no row. It is
described by `Query.SignatureAppended` and `Query.SignedRoundTrip`.

| member | source | states |
|---|---|---|
| BinanceTrade.CredentialError | supabase/functions/binance-trade/index.ts:55-64 | no error iff key and secret are both non-empty and the key has at least 10 characters; the missing-credentials message iff one of them is empty |
| BinanceTrade.TimeInForce | supabase/functions/binance-trade/index.ts:96-105 | an empty time-in-force becomes "GTC", any other is kept |
| BinanceTrade.BuildOrderData | supabase/functions/binance-trade/index.ts:84-106 | fails iff a LIMIT order lacks a price or a STOP_LIMIT order lacks price or stopPrice, with the matching message; otherwise keys are symbol, side, type, quantity, timestamp, then price, timeInForce (LIMIT) or price, stopPrice, timeInForce (STOP_LIMIT), nothing more for other types |
| BinanceTrade.Signed | supabase/functions/binance-trade/index.ts:112-123 | the outbound request has the given verb, path and query, carries the signature of exactly that query under the secret, and the API key |
| BinanceTrade.BaseParams | supabase/functions/binance-trade/index.ts:85-91 | the keys symbol, side, type, quantity, timestamp in that order, with the caller's symbol, side and type, the quantity's text and a timestamp that reads back to the clock |
| BinanceTrade.PriceParams | supabase/functions/binance-trade/index.ts:93-106 | price, timeInForce for LIMIT; price, stopPrice, timeInForce for STOP_LIMIT; nothing for other types; the first is the price's text and the last the time in force |
| BinanceTrade.Logged | supabase/functions/binance-trade/index.ts:28-39 | a log write leaves its one row, or nothing when the insert fails, since the failure is swallowed |
| BinanceTrade.PlaceOrder | supabase/functions/binance-trade/index.ts:75-165 | fails with the missing-parameters message when symbol, side, type or quantity is falsy (quantity 0 included); sends nothing and writes nothing when validation fails; sends exactly the signed render of the ordered parameters; fails with the LIMIT or STOP_LIMIT price message, before anything is sent, when a price is missing; on a not-ok reply writes the ERROR log entry and fails with `msg` or "Order failed"; on an ok reply succeeds even when the order insert or the log insert failed, inserts the order row only when the insert succeeded and writes the ORDER log entry; never touches positions or balance |
| BinanceTrade.CancelQuery | supabase/functions/binance-trade/index.ts:174 | the cancel query is the same `key=value&…` rendering as the order query, of exactly symbol, orderId, timestamp |
| BinanceTrade.TimestampQuery | supabase/functions/binance-trade/index.ts:200-201 | the account and open-orders query is the rendering of the single timestamp parameter |
| BinanceTrade.MarkCanceled | supabase/functions/binance-trade/index.ts:191-193 | same length; exactly the rows whose order id equals the given id get status CANCELED, all others are unchanged |
| BinanceTrade.CancelOrder | supabase/functions/binance-trade/index.ts:167-197 | sends nothing and fails iff symbol or orderId is missing; sends the signed cancel query; a not-ok reply writes the ERROR log entry and fails; an ok reply succeeds, marks exactly the matching order rows CANCELED when the store update succeeds (and changes no row when it fails), and writes the ORDER log entry; a failed log insert leaves the log unchanged |
| BinanceTrade.BalanceRowOf | supabase/functions/binance-trade/index.ts:219-226 | the balance row carries the USDT asset's wallet, available and margin balances and unrealized profit, tagged USDT |
| BinanceTrade.OrderRowOf | supabase/functions/binance-trade/index.ts:142-155 | the stored order row keeps order id, client order id, symbol, side, type, quantity, price, status and average price; a missing executed quantity is stored as 0; row id and creation time come from the store |
| BinanceTrade.GetAccount | supabase/functions/binance-trade/index.ts:199-260 | on an ok reply the balance row at the fixed id is replaced wholesale only when a USDT asset is present and the upsert succeeds; the positions table becomes the reconciliation of the reported positions (untouched when none are reported); error replies change nothing; the table invariant is kept |
| BinanceTrade.GetOpenOrders | supabase/functions/binance-trade/index.ts:262-278 | sends the signed timestamp query and passes the reply through or fails with `msg` or the fixed message |
| BinanceTrade.Handle | supabase/functions/binance-trade/index.ts:54-281 | a credential error or an unknown action fails before any request is sent or any table is written; every request sent is signed over its own query; only get_account touches positions and balance |
| BinanceTrade.Database.constructor | supabase/functions/binance-trade/index.ts:66 | the store client over the given positions, balance and order tables (positions keyed by symbol), with no log rows yet |
| BinanceTrade.Database.ReconcilePositions | supabase/functions/binance-trade/index.ts:232-253 | the loop leaves exactly the fold of upsert-or-delete over the reported positions, in order, and keeps every row keyed by its symbol with a positive size |
| Exchange.FindAsset | supabase/functions/binance-trade/index.ts:216 | none iff no asset has the name; otherwise the first asset with that name |
| PositionsTable.RowOf | supabase/functions/binance-trade/index.ts:236-246 | the upserted row has the report's symbol, side LONG iff the amount is positive, size equal to the absolute amount, so positive, and the report's entry price, unrealized profit, leverage, margin type and liquidation price |
| PositionsTable.ApplyReport | supabase/functions/binance-trade/index.ts:235-251 | one loop step: the reported symbol has a row iff its amount is nonzero, and then it is that report's row; every other symbol keeps its entry |
| PositionsTable.ApplySnapshot | supabase/functions/binance-trade/index.ts:232-253 | the whole loop: every symbol the snapshot does not report keeps its entry |
| PositionsTable.LastReport | supabase/functions/binance-trade/index.ts:233-252 | none iff the symbol is not reported; otherwise a report of that symbol after which the symbol is not reported again |
| PositionsTable.ApplySnapshotAt | supabase/functions/binance-trade/index.ts:232-253 | after reconciliation a symbol's row is decided by its last report (a row if nonzero, no row if zero); symbols not reported keep their old row |
| PositionsTable.ApplySnapshotIdempotent | supabase/functions/binance-trade/index.ts:232-253 | reconciling the same snapshot twice gives the same table as once |
| PositionsTable.ClosedPositionIsDeleted | supabase/functions/binance-trade/index.ts:247-251 | a symbol whose last report has amount zero has no row afterwards |
| PositionsTable.ApplySnapshotKeepsValid | supabase/functions/binance-trade/index.ts:233-252 | reconciliation keeps every row keyed by its own symbol with a positive size |
| Query.Render | supabase/functions/binance-trade/index.ts:109-111 | the query is empty iff there are no parameters; it starts with the first `key=value`; each parameter adds at least `=` and each join an `&` |
| Query.Keys | supabase/functions/binance-trade/index.ts:109-111 | the keys of a parameter list, in order |
| Query.RenderRoundTrip | supabase/functions/binance-trade/index.ts:109-111 | splitting the joined query on `&` and each field at its first `=` gives back the parameter list, order included, for keys without `&`/`=` and values without `&` |
| Query.RenderAppend | supabase/functions/binance-trade/index.ts:109-111 | rendering a list with one more parameter appends `&key=value` to the rendering |
| Query.SignatureIsLastParam | supabase/functions/binance-trade/index.ts:112-118 | the request query is the rendering of the signed parameters with `signature` appended as the last parameter, the signature taken over exactly the rendered string |
| Query.SignedQueryParses | supabase/functions/binance-trade/index.ts:109-118 | the request query parses back to the order parameters followed by the signature parameter |
| Query.SignedRoundTrip | supabase/functions/binance-trade/index.ts:109-118 | the same for any signature value without `&` |
| Text.DecimalText | supabase/functions/binance-trade/index.ts:90 | `${timestamp}`: at least one character, all digits, no leading zero |
| Text.DecimalRoundTrip | supabase/functions/binance-trade/index.ts:90 | the decimal rendering of a timestamp reads back to the same number |
| Text.DecimalTextInjective | supabase/functions/binance-trade/index.ts:90 | different timestamps render differently |
| Text.MsgOr | supabase/functions/binance-trade/index.ts:137-138 | `msg \|\| fallback`: the fallback exactly when the message is missing, empty or the fallback itself; otherwise the message |
| Text.TakeLast | src/hooks/useDemoMode.ts:97 | `slice(-n)`: the last n characters, or the whole string when it is shorter |
| UseBinance.PositionOf | src/hooks/useBinance.ts:93-102 | id and symbol are the symbol; side LONG iff the amount is positive; size is the absolute amount and positive; mark price is the reported one or else the entry price; entry price, unrealized profit and leverage are the report's |
| UseBinance.Active | src/hooks/useBinance.ts:91-102 | the result is no longer than the report and every size is positive |
| UseBinance.ActivePositions | src/hooks/useBinance.ts:91-102 | a missing positions field gives an empty list |
| UseBinance.ActiveMember | src/hooks/useBinance.ts:91-102 | a position is shown iff some reported position with nonzero amount maps to it |
| UseBinance.ActiveAppend | src/hooks/useBinance.ts:91-102 | filtering distributes over concatenation, so the reported order is kept |
| UseBinance.ActiveKeepsAllNonzero | src/hooks/useBinance.ts:91-102 | with no zero amounts every report is shown, at its own index |
| UseBinance.LiveViewMatchesStore | src/hooks/useBinance.ts:91-102 | for a snapshot reporting each symbol once, the shown positions and the rows reconciliation writes into an empty table have the same symbols, sides and sizes |
| UseBinance.AccountEffect | src/hooks/useBinance.ts:71-111 | an invocation error sets connected false and keeps the rest; a successful reply with data sets connected true, shows the active positions and replaces the balance only when a USDT asset exists; any other reply changes nothing |
| UseBinance.BalanceOf | src/hooks/useBinance.ts:80-88 | the shown balance takes the USDT asset's wallet, available and margin balances and unrealized profit |
| UseBinance.BalanceOfRow | src/hooks/useBinance.ts:272-277 | the shown balance takes the notified row's four figures |
| UseBinance.FormatOrders | src/hooks/useBinance.ts:123-134 | one formatted order per row in the same order; missing data gives no orders |
| UseBinance.FormatOrder | src/hooks/useBinance.ts:123-134 | keeps id, order id, symbol, side, type, status, quantity and creation time; price is null iff missing or zero; filled quantity defaults to 0 |
| UseBinance.Patched | src/hooks/useBinance.ts:255-263 | keeps the symbol, takes the new price, and takes each of price change, change percent, 24 h high, low and volume from the row, or 0 when it is missing |
| UseBinance.PatchTicker | src/hooks/useBinance.ts:251-266 | same length and symbols in the same order; only entries with the notified symbol change |
| UseBinance.PatchUnknownSymbol | src/hooks/useBinance.ts:253-265 | a notification for a symbol not in the list changes nothing |
| UseBinance.PatchIdempotent | src/hooks/useBinance.ts:253-265 | applying the same notification twice equals applying it once |
| UseBinance.LiveSource.constructor | src/hooks/useBinance.ts:48-53 | empty lists, no balance, not loading, not connected |
| UseBinance.LiveSource.Exposed | src/hooks/useBinance.ts:287-299 | the hook's own state, not in demo mode |
| UseBinance.LiveSource.FetchPrices | src/hooks/useBinance.ts:55-69 | a successful poll replaces the prices and sets connected; a failed one changes neither |
| UseBinance.LiveSource.FetchAccount | src/hooks/useBinance.ts:71-111 | balance, positions and connected become `AccountEffect` of the reply |
| UseBinance.LiveSource.FetchOrders | src/hooks/useBinance.ts:113-140 | a successful query replaces the orders by their formatted rows (none when data is missing); an error keeps them |
| UseBinance.LiveSource.PlaceOrder | src/hooks/useBinance.ts:142-190 | loading is false afterwards; exactly one toast, "Order Placed" on success or destructive "Order Failed"; the failure is passed back with the invocation error or `error \|\| "Order failed"`; on success account and orders are refreshed, on failure they are unchanged |
| UseBinance.LiveSource.CancelOrder | src/hooks/useBinance.ts:192-221 | loading is false afterwards; exactly one toast, "Order Canceled" or destructive "Cancel Failed"; no error is passed back; orders are refreshed only on success |
| UseBinance.LiveSource.OnTickerChange | src/hooks/useBinance.ts:249-266 | the prices become the patch of the notification, or stay when it has no row |
| UseBinance.LiveSource.OnBalanceChange | src/hooks/useBinance.ts:268-278 | the balance is replaced by the notified row, or kept when it has no row |
| UseDemoMode.DemoOrders | src/hooks/useDemoMode.ts:27-33 | five sample orders, each with an order id and status OPEN or FILLED |
| UseDemoMode.DemoOrderId | src/hooks/useDemoMode.ts:97 | "DEMO" followed by the last six digits of the clock, or all of them when there are fewer |
| UseDemoMode.DemoOrderIdRepeats | src/hooks/useDemoMode.ts:97 | the order ids of clocks 123456 and 1123456 are equal, so cancelling the later order also cancels the earlier one |
| UseDemoMode.UniqueDemoOrderId | src/hooks/useDemoMode.ts:97 | the intended id: "DEMO" followed by the whole clock |
| UseDemoMode.UniqueDemoOrderIdsDiffer | src/hooks/useDemoMode.ts:97 | with the whole clock, different instants give different order ids |
| UseDemoMode.NewOrder | src/hooks/useDemoMode.ts:95-106 | FILLED with filled quantity = quantity iff MARKET, else OPEN with 0; price null iff missing or zero; id, order id and creation time from one clock reading; the caller's symbol, side, type and quantity |
| UseDemoMode.NewOrderIdsDiffer | src/hooks/useDemoMode.ts:96 | orders placed at different instants have different ids |
| UseDemoMode.CancelMatching | src/hooks/useDemoMode.ts:117-119 | same length; every order with the id becomes CANCELED whatever its status, every other order is unchanged |
| UseDemoMode.CancelUnknownIsIdentity | src/hooks/useDemoMode.ts:117-119 | cancelling an id no order has leaves the list identical |
| UseDemoMode.CancelIdempotent | src/hooks/useDemoMode.ts:117-119 | cancelling twice equals cancelling once |
| UseDemoMode.CancelOverwritesFilled | src/hooks/useDemoMode.ts:117-119 | a FILLED order with the id becomes CANCELED and keeps its filled quantity |
| UseDemoMode.DemoSource.constructor | src/hooks/useDemoMode.ts:42-46 | the demo prices, balance, positions and orders, not loading |
| UseDemoMode.DemoSource.IsConnected | src/hooks/useDemoMode.ts:141 | always connected |
| UseDemoMode.DemoSource.Exposed | src/hooks/useDemoMode.ts:135-142 | the hook's own state, connected and in demo mode |
| UseDemoMode.DemoSource.PlaceOrder | src/hooks/useDemoMode.ts:83-112 | exactly one order is prepended and the previous ones follow unchanged; the returned order id and status are those of the stored order; loading is false afterwards |
| UseDemoMode.DemoSource.CancelOrder | src/hooks/useDemoMode.ts:114-121 | the orders become `CancelMatching` of the id, the symbol playing no part; loading is false afterwards |
| UseTradingData.StoredText | src/hooks/useTradingData.ts:42 | `String(b)` is "true" iff b |
| UseTradingData.InitialMode | src/hooks/useTradingData.ts:32-36 | DEMO when nothing is stored, otherwise DEMO iff the stored text is exactly "true" |
| UseTradingData.StoredPreferenceRoundTrip | src/hooks/useTradingData.ts:34-42 | reading back a stored preference gives the preference |
| UseTradingData.Rearm | src/hooks/useTradingData.ts:47-58 | a timer is pending afterwards iff LIVE, disconnected and no prices, and then it fires 10000 ms from now |
| UseTradingData.Init | src/hooks/useTradingData.ts:32-58 | the initial mode comes from the stored preference; a timer is pending iff the session starts in LIVE |
| UseTradingData.Step | src/hooks/useTradingData.ts:41-58 | keeps the invariant (a timer pending iff the arm condition holds, due within 10 s); DEMO is entered only by the user or a timer and left only by `setDemoMode(false)`; time that does not reach a pending deadline changes only the clock; `setDemoMode(b)` sets the mode to b and stores `String(b)`, and a toggle re-arms the timer at now + 10000 ms iff the arm condition holds for the new mode; a source change takes the live source's connection flag and price count, and no other event changes them |
| UseTradingData.RunPreservesValid | src/hooks/useTradingData.ts:47-58 | every state reached by any event sequence keeps the invariant |
| UseTradingData.DemoIsSticky | src/hooks/useTradingData.ts:41-58 | from DEMO, any sequence without `setDemoMode(false)` ends in DEMO |
| UseTradingData.NoFallbackWhileConnected | src/hooks/useTradingData.ts:48-54 | while connected, time passing changes nothing but the clock |
| UseTradingData.ChangeRestartsTimer | src/hooks/useTradingData.ts:56-58 | a change of the connection flag or the price count clears a pending timer and arms a new one iff the mode is LIVE and the new inputs are disconnected with no prices; that timer fires 10000 ms after the change |
| UseTradingData.NoFallbackBeforeDeadline | src/hooks/useTradingData.ts:50-54 | while only time passes and the pending deadline is not reached, the state is unchanged except the clock: a LIVE session stays LIVE and nothing is stored |
| UseTradingData.FallbackAfterQuietPeriod | src/hooks/useTradingData.ts:50-54 | with a timer pending and only time passing, once the delay has elapsed the mode is DEMO and "true" is stored |
| UseTradingData.QuietKeepsPreference | src/hooks/useTradingData.ts:47-58 | in DEMO with no timer, time passing leaves the stored preference alone |
| UseTradingData.FreshLiveSessionFallsBack | src/hooks/useTradingData.ts:32-58 | a session started in LIVE (any stored preference that reads as LIVE) that never connects is in DEMO, with "true" stored, after 10 quiet seconds |
| UseTradingData.Select | src/hooks/useTradingData.ts:60-72 | the demo snapshot in DEMO and the live snapshot in LIVE, with `isDemoMode` equal to the mode |
| UseTradingData.ModeArbiter.constructor | src/hooks/useTradingData.ts:32-36 | the fields hold the initial state for the stored preference, which satisfies the invariant |
| UseTradingData.ModeArbiter.SetDemoMode | src/hooks/useTradingData.ts:41-44 | the new state is `Step` of the toggle: the mode is the argument and reading back the stored text gives it |
| UseTradingData.ModeArbiter.SourceChanged | src/hooks/useTradingData.ts:47-58 | the new state is `Step` of the change and keeps the invariant |
| UseTradingData.ModeArbiter.Elapse | src/hooks/useTradingData.ts:50-54 | the new state is `Step` of the elapsed time and keeps the invariant |
| UseTradingData.ModeArbiter.Exposed | src/hooks/useTradingData.ts:60-72 | in DEMO every field comes from the demo source and it is connected; in LIVE every field comes from the live source; `isDemoMode` equals the mode |
| TradingLogs.Prepend | src/components/TradingLogs.tsx:72 | the new entry is element 0; the length is min(old + 1, 50); elements 1.. are the first min(old, 49) previous entries in order |
| TradingLogs.NewestFirst | src/components/TradingLogs.tsx:51-55 | at most `limit` entries, the newest first |
| TradingLogs.InsertMatchesReload | src/components/TradingLogs.tsx:51-72 | an insert notification leaves the panel equal to what a reload of the extended table would show |
| TradingLogs.StyleLookupAsWritten | src/components/TradingLogs.tsx:132 | own log types get their style; inherited member names get the inherited member, not a style; every other type gets INFO |
| TradingLogs.ConstructorTypeSkipsFallback | src/components/TradingLogs.tsx:132 | the log type "constructor" is not styled as INFO |
| TradingLogs.StyleOf | src/components/TradingLogs.tsx:16-41 | a configured type gets its own style, any other type the INFO style; the result is always one of the configured styles |
| TradingLogs.StyleOfAgreesOffPrototype | src/components/TradingLogs.tsx:132 | the written lookup and `StyleOf` agree on every type that is not an inherited member name |
| TradingLogs.LogPanel.constructor | src/components/TradingLogs.tsx:44-45 | no entries, not loading |
| TradingLogs.LogPanel.Styles | src/components/TradingLogs.tsx:131-132 | one lookup per listed entry, by the lookup as written: a configured type's style, no style for an inherited member name, INFO for every other type |
| TradingLogs.LogPanel.StylesAsIntended | src/components/TradingLogs.tsx:131-132 | while no listed type is an inherited member name, every entry is drawn with its intended style |
| TradingLogs.LogPanel.FetchLogs | src/components/TradingLogs.tsx:48-64 | loading is false afterwards; on success the entries are the newest 50 of the table, on failure they are kept; at most 50 entries either way |
| TradingLogs.LogPanel.OnInsert | src/components/TradingLogs.tsx:71-73 | the entries become `Prepend` of the new one and stay at most 50 |

## Left out

- HMAC-SHA256 signing (`createSignature`) is the parameter `sign`. The model uses only the
  fact that it is a function.
- Number parsing and formatting are not modelled. This covers `parseFloat`, `parseInt`,
  `toString` of reals and `toISOString`. Amounts are reals, and `numText` and `iso` are
  parameters. So the model loses that a numeric string such as "0" is truthy where the code
  tests a string.
- BinanceTrade.PlaceOrder: the ORDER log message shows the amount re-rendered by `numText`
  from a real. The code interpolates the exchange's own `origQty` text (index.ts:161), so
  "0.010" there may read "0.01" in the model.
- The testnet host in the request URLs is not modelled. An outbound request is its verb,
  path, query, signature and API key.
- The demo random walk of prices and marks (useDemoMode.ts:36-81) is left out. It relies on
  `Math.random`, float rounding and an interval.
- Timers are discrete events: `Elapse` for the fallback delay. The polling intervals, the
  demo delays and the mount effects are not modelled.
- The request plumbing is not modelled. This covers the OPTIONS preflight, CORS headers,
  reading the request body, `console` output, the latency figures, the `details` of log rows
  and the JSON response envelope.
- BinanceTrade.GetAccount: errors of the positions upsert and delete are not modelled. Each
  is assumed to succeed. Failed order, balance, cancel and log writes are modelled.
- UseBinance.LiveSource.FetchOrders: the store's ordering and the limit of 20 are not
  modelled. The method takes the query's answer as given.
- UseBinance.LiveSource.PlaceOrder: runs atomically, so the interleaving of other updates while
  `isLoading` is true is not modelled. Neither is the request body sent to the edge function.
- UseBinance.LiveSource.CancelOrder: runs atomically, as `PlaceOrder` does.
- UseDemoMode.DemoSource.PlaceOrder: runs atomically; the 500 ms delay is not modelled. It uses
  the order id as written (`DemoOrderId`), not `UniqueDemoOrderId`. It also reads the clock
  once: `id`, `orderId` and `createdAt` each call `Date.now()` (useDemoMode.ts:96, 97, 105),
  and those calls can differ by a millisecond. The model uses a single `now` for all three.
- UseDemoMode.NewOrder: takes one clock reading `now` for the id, the order id and the
  creation time, where the source reads the clock once for each.
- UseDemoMode.DemoSource.CancelOrder: runs atomically; the 300 ms delay is not modelled.
- The no-op refresh callbacks of the demo source are not modelled. The realtime handlers that
  only re-run `fetchOrders` or `fetchAccount` are the fetch methods themselves.
- TradingLogs.LogPanel.FetchLogs: the table is given in creation order, and a successful
  answer without data counts as an empty table.
- supabase/functions/binance-prices/index.ts is not part of this model. Neither are the
  presentation components or the generated store types.

## Findings

| source | as written | input that shows it | evidently intended | confidence | as-written member | corrected member |
|---|---|---|---|---|---|---|
| src/components/TradingLogs.tsx:132 | `logTypeConfig[log.log_type] \|\| logTypeConfig.INFO` also finds the members a plain object inherits from `Object.prototype`. Those members are truthy, so the INFO fallback is skipped. | a log row with `log_type` "constructor" (or "toString", "valueOf", …) gets the `Object` function as its config, so no icon and class "undefined" | every log type that is not configured is drawn with the INFO style | not executed | TradingLogs.ConstructorTypeSkipsFallback | TradingLogs.StyleOf |
| src/hooks/useDemoMode.ts:97 | the demo order id keeps only the last six digits of `Date.now()`, so it repeats every 1,000,000 ms (about 16.7 minutes), and `cancelOrder` cancels every order with the id | orders placed at clocks 123456 and 1123456 both get order id "DEMO123456"; cancelling the second cancels the first too | each order id names one order, so a cancel touches only that order | not executed | UseDemoMode.DemoOrderIdRepeats | UseDemoMode.UniqueDemoOrderIdsDiffer |

=== FILE: binance_trade.dfy ===
/**
 * The order edge function (supabase/functions/binance-trade/index.ts): it checks the
 * credentials, validates and signs order requests, forwards them to the exchange and
 * writes the outcome into the durable store.
 *
 * What the exchange answers, what the store assigns and whether a store write fails
 * are parameters; HMAC-SHA256 is the parameter `sign`, `Number#toString` of a decimal
 * amount is the parameter `numText`, and `Date.now()` is the parameter `now`.
 */
module BinanceTrade {
  import opened Wrappers
  import opened Text
  import opened Exchange
  import opened Rows
  import opened Query
  import opened PositionsTable

  const ORDER_PATH := "/fapi/v1/order"
  const ACCOUNT_PATH := "/fapi/v2/account"
  const OPEN_ORDERS_PATH := "/fapi/v1/openOrders"
  const BALANCE_ROW_ID := "00000000-0000-0000-0000-000000000001"
  const MIN_KEY_LENGTH := 10

  const MISSING_CREDENTIALS :=
    "Binance API credentials not configured. Please add BINANCE_API_KEY and BINANCE_API_SECRET secrets."
  const BAD_KEY_FORMAT :=
    "Invalid BINANCE_API_KEY format. Please use Binance Futures Testnet API key from testnet.binancefuture.com"
  const MISSING_ORDER_PARAMS := "Missing required order parameters: symbol, side, type, quantity"
  const LIMIT_NEEDS_PRICE := "Price required for LIMIT orders"
  const STOP_LIMIT_NEEDS_PRICES := "Price and stopPrice required for STOP_LIMIT orders"
  const MISSING_CANCEL_PARAMS := "Symbol and orderId required to cancel order"
  const INVALID_RESPONSE := "Invalid response from Binance: "

  /** The secrets read from the environment; an unset variable is the empty string. */
  datatype Env = Env(apiKey: string, apiSecret: string)

  /**
   * The request body besides `action`. Missing strings are empty, missing numbers `None`;
   * `orderId` is taken as the text `${orderId}` gives.
   */
  datatype Params = Params(
    symbol: string,
    side: string,
    orderType: string,
    quantity: Option<real>,
    price: Option<real>,
    stopPrice: Option<real>,
    timeInForce: string,
    orderId: string)

  /** The exchange's answer to one call. */
  datatype Reply<T> =
    | Unreachable(error: string)                     // fetch threw
    | Malformed(text: string, parseError: string)    // the body is not JSON
    | Answered(ok: bool, msg: Option<string>, body: T)

  /** What the exchange would answer on each endpoint; only the one called is read. */
  datatype Replies = Replies(
    order: Reply<ExchangeOrder>,
    cancel: Reply<ExchangeOrder>,
    account: Reply<AccountSnapshot>,
    openOrders: Reply<seq<ExchangeOrder>>)

  /** What the store does with this call's writes. */
  datatype StoreAnswers = StoreAnswers(
    orderInsertOk: bool,
    balanceUpsertOk: bool,
    cancelUpdateOk: bool,
    logInsertOk: bool,
    newRowId: string,
    newRowCreatedAt: string)

  datatype Verb = GET | POST | DELETE

  /** The one signed call the function makes to the exchange. */
  datatype Outbound = Outbound(verb: Verb, path: string, query: string, signature: string, apiKey: string)

  /** The `data` of a successful answer. */
  datatype Payload =
    | Placed(order: ExchangeOrder)
    | Canceled(ack: ExchangeOrder)
    | Account(snapshot: AccountSnapshot)
    | OpenOrders(orders: seq<ExchangeOrder>)

  function Signed(verb: Verb, path: string, query: string, env: Env, sign: (string, string) -> string): (o: Outbound)
    ensures o.verb == verb && o.path == path && o.query == query
    ensures o.signature == sign(o.query, env.apiSecret) && o.apiKey == env.apiKey
  {
    Outbound(verb, path, query, sign(query, env.apiSecret), env.apiKey)
  }

  /** `!x` for a number: missing or zero. */
  predicate Falsy(x: Option<real>) {
    x.None? || x.value == 0.0
  }

  /** The credential checks made before anything else: the error, if any. */
  function CredentialError(env: Env): (e: Option<string>)
    ensures e.None? <==> env.apiKey != "" && env.apiSecret != "" && |env.apiKey| >= MIN_KEY_LENGTH
    ensures e == Some(MISSING_CREDENTIALS) <==> env.apiKey == "" || env.apiSecret == ""
  {
    if env.apiKey == "" || env.apiSecret == "" then Some(MISSING_CREDENTIALS)
    else if |env.apiKey| < MIN_KEY_LENGTH then Some(BAD_KEY_FORMAT)
    else None
  }

  predicate MissingOrderField(p: Params) {
    p.symbol == "" || p.side == "" || p.orderType == "" || Falsy(p.quantity)
  }

  /** A LIMIT order without a price, or a STOP_LIMIT order without both prices. */
  predicate PriceMissing(p: Params) {
    (p.orderType == "LIMIT" && Falsy(p.price))
    || (p.orderType == "STOP_LIMIT" && (Falsy(p.price) || Falsy(p.stopPrice)))
  }

  /** `timeInForce || 'GTC'`. */
  function TimeInForce(p: Params): (tif: string)
    ensures p.timeInForce == "" ==> tif == "GTC"
    ensures p.timeInForce != "" ==> tif == p.timeInForce
  {
    OrElse(p.timeInForce, "GTC")
  }

  /** The parameters every order starts with. */
  function BaseParams(p: Params, timestamp: nat, numText: real -> string): (ps: seq<Param>)
    requires !Falsy(p.quantity)
    ensures Keys(ps) == ["symbol", "side", "type", "quantity", "timestamp"]
    ensures ps[0].value == p.symbol && ps[1].value == p.side && ps[2].value == p.orderType
    ensures ps[3].value == numText(p.quantity.value)
    ensures (forall i :: 0 <= i < |ps[4].value| ==> IsDigit(ps[4].value[i])) && DecimalValue(ps[4].value) == timestamp
  {
    DecimalRoundTrip(timestamp);
    [ Param("symbol", p.symbol), Param("side", p.side), Param("type", p.orderType),
      Param("quantity", numText(p.quantity.value)), Param("timestamp", DecimalText(timestamp)) ]
  }

  /** The parameters a LIMIT or STOP_LIMIT order appends. */
  function PriceParams(p: Params, numText: real -> string): (ps: seq<Param>)
    requires !PriceMissing(p)
    ensures p.orderType == "LIMIT" ==> Keys(ps) == ["price", "timeInForce"]
    ensures p.orderType == "STOP_LIMIT" ==> Keys(ps) == ["price", "stopPrice", "timeInForce"]
    ensures p.orderType != "LIMIT" && p.orderType != "STOP_LIMIT" ==> ps == []
    ensures ps != [] ==> ps[0].value == numText(p.price.value) && ps[|ps| - 1].value == TimeInForce(p)
  {
    if p.orderType == "LIMIT" then
      [Param("price", numText(p.price.value)), Param("timeInForce", TimeInForce(p))]
    else if p.orderType == "STOP_LIMIT" then
      [ Param("price", numText(p.price.value)), Param("stopPrice", numText(p.stopPrice.value)),
        Param("timeInForce", TimeInForce(p)) ]
    else []
  }

  /**
   * Builds `orderData` field by field, as place_order does, failing on a missing price.
   * Its keys come in the fixed order: symbol, side, type, quantity, timestamp, then
   * price and timeInForce for LIMIT, price, stopPrice and timeInForce for STOP_LIMIT,
   * nothing more for any other type.
   */
  method BuildOrderData(p: Params, timestamp: nat, numText: real -> string) returns (r: Result<seq<Param>>)
    requires !Falsy(p.quantity)
    ensures r.Failure? <==> PriceMissing(p)
    ensures r.Failure? ==> r.error == if p.orderType == "LIMIT" then LIMIT_NEEDS_PRICE else STOP_LIMIT_NEEDS_PRICES
    ensures r.Success? ==> r.value == BaseParams(p, timestamp, numText) + PriceParams(p, numText)
    ensures r.Success? ==> (Keys(r.value) ==
                            ["symbol", "side", "type", "quantity", "timestamp"]
                            + (if p.orderType == "LIMIT" then ["price", "timeInForce"]
                               else if p.orderType == "STOP_LIMIT" then ["price", "stopPrice", "timeInForce"]
                               else []))
  {
    var data := [ Param("symbol", p.symbol), Param("side", p.side), Param("type", p.orderType),
                  Param("quantity", numText(p.quantity.value)), Param("timestamp", DecimalText(timestamp)) ];
    if p.orderType == "LIMIT" {
      if Falsy(p.price) {
        return Failure(LIMIT_NEEDS_PRICE);
      }
      data := data + [Param("price", numText(p.price.value))];
      data := data + [Param("timeInForce", OrElse(p.timeInForce, "GTC"))];
    }
    if p.orderType == "STOP_LIMIT" {
      if Falsy(p.price) || Falsy(p.stopPrice) {
        return Failure(STOP_LIMIT_NEEDS_PRICES);
      }
      data := data + [Param("price", numText(p.price.value))];
      data := data + [Param("stopPrice", numText(p.stopPrice.value))];
      data := data + [Param("timeInForce", OrElse(p.timeInForce, "GTC"))];
    }
    r := Success(data);
  }

  /**
   * `symbol=${symbol}&orderId=${orderId}&timestamp=${timestamp}`: the same `key=value&…`
   * rendering as the order query, of exactly symbol, orderId and timestamp.
   */
  function CancelQuery(symbol: string, orderId: string, timestamp: nat): (q: string)
    ensures q == Render([Param("symbol", symbol), Param("orderId", orderId), Param("timestamp", DecimalText(timestamp))])
  {
    var ps := [Param("symbol", symbol), Param("orderId", orderId), Param("timestamp", DecimalText(timestamp))];
    assert ps[1..][1..] == [ps[2]];
    assert Render(ps[1..]) == Field(ps[1]) + "&" + Field(ps[2]);
    "symbol=" + symbol + "&orderId=" + orderId + "&timestamp=" + DecimalText(timestamp)
  }

  /** `timestamp=${timestamp}`, the query of the two read-only calls. */
  function TimestampQuery(timestamp: nat): (q: string)
    ensures q == Render([Param("timestamp", DecimalText(timestamp))])
  {
    "timestamp=" + DecimalText(timestamp)
  }

  function OrderRowOf(o: ExchangeOrder, store: StoreAnswers): (row: OrderRow)
    ensures row.orderId == o.orderId && row.symbol == o.symbol && row.side == o.side
    ensures row.quantity == o.origQty && row.status == o.status
    ensures row.filledQuantity == Some(if o.executedQty.Some? then o.executedQty.value else 0.0)
    ensures row.clientOrderId == o.clientOrderId && row.orderType == o.orderType
    ensures row.price == o.price && row.averagePrice == o.avgPrice
    ensures row.id == store.newRowId && row.createdAt == store.newRowCreatedAt
  {
    OrderRow(
      store.newRowId, o.orderId, o.clientOrderId, o.symbol, o.side, o.orderType, o.origQty,
      o.price, o.status, Some(o.executedQty.GetOr(0.0)), o.avgPrice, store.newRowCreatedAt)
  }

  /** The balance row written from the USDT asset. */
  function BalanceRowOf(a: Asset): (row: BalanceRow)
    ensures row.asset == USDT && row.totalBalance == a.walletBalance
    ensures row.availableBalance == a.availableBalance && row.marginBalance == a.marginBalance
    ensures row.unrealizedPnl == a.unrealizedProfit
  {
    BalanceRow(a.walletBalance, a.availableBalance, a.marginBalance, a.unrealizedProfit, USDT)
  }

  /** Sets status CANCELED on exactly the rows whose `order_id` is the given id. */
  function MarkCanceled(rows: seq<OrderRow>, orderId: string): (r: seq<OrderRow>)
    ensures |r| == |rows|
    ensures forall i :: 0 <= i < |rows| ==>
      r[i] == if rows[i].orderId == Some(orderId) then rows[i].(status := "CANCELED") else rows[i]
  {
    if rows == [] then []
    else
      [if rows[0].orderId == Some(orderId) then rows[0].(status := "CANCELED") else rows[0]]
      + MarkCanceled(rows[1..], orderId)
  }

  /** The log rows one `logToDatabase` call leaves: none when the insert fails. */
  function Logged(store: StoreAnswers, row: LogRow): (rows: seq<LogRow>)
    ensures rows == [] <==> !store.logInsertOk
    ensures store.logInsertOk ==> rows == [row]
  {
    if store.logInsertOk then [row] else []
  }

  /** The durable store's tables that the function writes. */
  class Database {
    var positions: Table
    var balances: map<string, BalanceRow>
    var orders: seq<OrderRow>
    var logs: seq<LogRow>

    ghost predicate Valid()
      reads this
    {
      TableValid(positions)
    }

    constructor (positions: Table, balances: map<string, BalanceRow>, orders: seq<OrderRow>)
      requires TableValid(positions)
      ensures Valid()
      ensures this.positions == positions && this.balances == balances && this.orders == orders && logs == []
    {
      this.positions := positions;
      this.balances := balances;
      this.orders := orders;
      logs := [];
    }

    /** The `for (const pos of result.positions)` loop: upsert or delete by symbol. */
    method ReconcilePositions(reported: seq<ReportedPosition>)
      requires Valid()
      modifies this`positions
      ensures Valid()
      ensures positions == ApplySnapshot(old(positions), reported)
    {
      var i := 0;
      while i < |reported|
        invariant 0 <= i <= |reported|
        invariant positions == ApplySnapshot(old(positions), reported[..i])
      {
        var pos := reported[i];
        if pos.positionAmt != 0.0 {
          positions := positions[pos.symbol := RowOf(pos)];
        } else {
          positions := positions - {pos.symbol};
        }
        assert reported[..i + 1][..i] == reported[..i];
        i := i + 1;
      }
      assert reported[..i] == reported;
      ApplySnapshotKeepsValid(old(positions), reported);
    }
  }

  /** The `place_order` action. */
  method PlaceOrder(db: Database, env: Env, p: Params, now: nat, reply: Reply<ExchangeOrder>,
                    store: StoreAnswers, numText: real -> string, sign: (string, string) -> string)
    returns (res: Result<Payload>, sent: Option<Outbound>)
    modifies db
    ensures MissingOrderField(p) ==> res == Failure(MISSING_ORDER_PARAMS)
    ensures !MissingOrderField(p) && PriceMissing(p) ==>
      res == Failure(if p.orderType == "LIMIT" then LIMIT_NEEDS_PRICE else STOP_LIMIT_NEEDS_PRICES)
    ensures sent.None? ==> unchanged(db) && res.Failure?
    ensures sent.Some? <==> !MissingOrderField(p) && !PriceMissing(p)
    ensures sent.Some? ==>
      sent.value == Signed(POST, ORDER_PATH, Render(BaseParams(p, now, numText) + PriceParams(p, numText)), env, sign)
    ensures sent.Some? && !reply.Answered? ==> unchanged(db) && res.Failure?
    ensures sent.Some? && reply.Unreachable? ==> res == Failure(reply.error)
    ensures sent.Some? && reply.Malformed? ==> res == Failure(INVALID_RESPONSE + reply.text)
    ensures sent.Some? && reply.Answered? && !reply.ok ==>
      && res == Failure(MsgOr(reply.msg, "Order failed"))
      && db.logs == old(db.logs) + Logged(store, LogRow("ERROR", "Order failed: " + MsgOr(reply.msg, "Unknown error")))
      && db.orders == old(db.orders)
    ensures sent.Some? && reply.Answered? && reply.ok ==>
      && res == Success(Placed(reply.body))
      && db.orders == old(db.orders) + (if store.orderInsertOk then [OrderRowOf(reply.body, store)] else [])
      && db.logs == old(db.logs) + Logged(store, LogRow("ORDER", "Order placed: " + reply.body.side + " "
                                           + numText(reply.body.origQty) + " " + reply.body.symbol))
    ensures db.positions == old(db.positions) && db.balances == old(db.balances)
  {
    sent := None;
    if p.symbol == "" || p.side == "" || p.orderType == "" || Falsy(p.quantity) {
      return Failure(MISSING_ORDER_PARAMS), None;
    }
    var data := BuildOrderData(p, now, numText);
    if data.Failure? {
      return Failure(data.error), None;
    }
    var query := Render(data.value);
    var signature := sign(query, env.apiSecret);
    sent := Some(Outbound(POST, ORDER_PATH, query, signature, env.apiKey));
    match reply {
      case Unreachable(e) =>
        res := Failure(e);
      case Malformed(text, _) =>
        res := Failure(INVALID_RESPONSE + text);
      case Answered(ok, msg, order) =>
        if !ok {
          db.logs := db.logs + Logged(store, LogRow("ERROR", "Order failed: " + MsgOr(msg, "Unknown error")));
          res := Failure(MsgOr(msg, "Order failed"));
        } else {
          if store.orderInsertOk {
            db.orders := db.orders + [OrderRowOf(order, store)];
          }
          db.logs := db.logs + Logged(store, LogRow("ORDER", "Order placed: " + order.side + " "
                                       + numText(order.origQty) + " " + order.symbol));
          res := Success(Placed(order));
        }
    }
  }

  /** The `cancel_order` action. */
  method CancelOrder(db: Database, env: Env, p: Params, now: nat, reply: Reply<ExchangeOrder>,
                     store: StoreAnswers, sign: (string, string) -> string)
    returns (res: Result<Payload>, sent: Option<Outbound>)
    modifies db
    ensures sent.None? <==> p.symbol == "" || p.orderId == ""
    ensures sent.None? ==> res == Failure(MISSING_CANCEL_PARAMS) && unchanged(db)
    ensures sent.Some? ==> sent.value == Signed(DELETE, ORDER_PATH, CancelQuery(p.symbol, p.orderId, now), env, sign)
    ensures sent.Some? && reply.Unreachable? ==> res == Failure(reply.error) && unchanged(db)
    ensures sent.Some? && reply.Malformed? ==> res == Failure(reply.parseError) && unchanged(db)
    ensures sent.Some? && reply.Answered? && !reply.ok ==>
      && res == Failure(MsgOr(reply.msg, "Cancel failed"))
      && db.logs == old(db.logs) + Logged(store, LogRow("ERROR", "Cancel order failed: " + MsgText(reply.msg)))
      && db.orders == old(db.orders)
    ensures sent.Some? && reply.Answered? && reply.ok ==>
      && res == Success(Canceled(reply.body))
      && db.orders == (if store.cancelUpdateOk then MarkCanceled(old(db.orders), p.orderId) else old(db.orders))
      && db.logs == old(db.logs) + Logged(store, LogRow("ORDER", "Order canceled: " + p.orderId))
    ensures db.positions == old(db.positions) && db.balances == old(db.balances)
  {
    if p.symbol == "" || p.orderId == "" {
      return Failure(MISSING_CANCEL_PARAMS), None;
    }
    var query := "symbol=" + p.symbol + "&orderId=" + p.orderId + "&timestamp=" + DecimalText(now);
    var signature := sign(query, env.apiSecret);
    sent := Some(Outbound(DELETE, ORDER_PATH, query, signature, env.apiKey));
    match reply {
      case Unreachable(e) =>
        res := Failure(e);
      case Malformed(_, parseError) =>
        res := Failure(parseError);
      case Answered(ok, msg, ack) =>
        if !ok {
          db.logs := db.logs + Logged(store, LogRow("ERROR", "Cancel order failed: " + MsgText(msg)));
          res := Failure(MsgOr(msg, "Cancel failed"));
        } else {
          if store.cancelUpdateOk {
            db.orders := MarkCanceled(db.orders, p.orderId);
          }
          db.logs := db.logs + Logged(store, LogRow("ORDER", "Order canceled: " + p.orderId));
          res := Success(Canceled(ack));
        }
    }
  }

  /** The `get_account` action: balance and positions reconciliation. */
  method GetAccount(db: Database, env: Env, now: nat, reply: Reply<AccountSnapshot>, store: StoreAnswers,
                    sign: (string, string) -> string)
    returns (res: Result<Payload>, sent: Option<Outbound>)
    requires db.Valid()
    modifies db
    ensures db.Valid()
    ensures sent == Some(Signed(GET, ACCOUNT_PATH, TimestampQuery(now), env, sign))
    ensures reply.Unreachable? ==> res == Failure(reply.error) && unchanged(db)
    ensures reply.Malformed? ==> res == Failure(reply.parseError) && unchanged(db)
    ensures reply.Answered? && !reply.ok ==> res == Failure(MsgOr(reply.msg, "Failed to get account")) && unchanged(db)
    ensures reply.Answered? && reply.ok ==>
      var acct := reply.body;
      var usdt := FindAsset(acct.assets, USDT);
      && res == Success(Account(acct))
      && db.balances == (if usdt.Some? && store.balanceUpsertOk
                         then old(db.balances)[BALANCE_ROW_ID := BalanceRowOf(usdt.value)]
                         else old(db.balances))
      && db.positions == (if acct.positions.Some? then ApplySnapshot(old(db.positions), acct.positions.value)
                          else old(db.positions))
      && db.logs == old(db.logs) + Logged(store, LogRow("BALANCE", "Account data updated"))
    ensures db.orders == old(db.orders)
  {
    var query := "timestamp=" + DecimalText(now);
    var signature := sign(query, env.apiSecret);
    sent := Some(Outbound(GET, ACCOUNT_PATH, query, signature, env.apiKey));
    match reply {
      case Unreachable(e) =>
        res := Failure(e);
      case Malformed(_, parseError) =>
        res := Failure(parseError);
      case Answered(ok, msg, acct) =>
        if !ok {
          return Failure(MsgOr(msg, "Failed to get account")), sent;
        }
        var usdt := FindAsset(acct.assets, USDT);
        if usdt.Some? && store.balanceUpsertOk {
          db.balances := db.balances[BALANCE_ROW_ID := BalanceRowOf(usdt.value)];
        }
        if acct.positions.Some? {
          db.ReconcilePositions(acct.positions.value);
        }
        db.logs := db.logs + Logged(store, LogRow("BALANCE", "Account data updated"));
        res := Success(Account(acct));
    }
  }

  /** The `get_open_orders` action: a signed read that writes nothing. */
  method GetOpenOrders(env: Env, now: nat, reply: Reply<seq<ExchangeOrder>>, sign: (string, string) -> string)
    returns (res: Result<Payload>, sent: Option<Outbound>)
    ensures sent == Some(Signed(GET, OPEN_ORDERS_PATH, TimestampQuery(now), env, sign))
    ensures reply.Unreachable? ==> res == Failure(reply.error)
    ensures reply.Malformed? ==> res == Failure(reply.parseError)
    ensures reply.Answered? ==>
      res == if reply.ok then Success(OpenOrders(reply.body)) else Failure(MsgOr(reply.msg, "Failed to get open orders"))
  {
    var query := "timestamp=" + DecimalText(now);
    sent := Some(Outbound(GET, OPEN_ORDERS_PATH, query, sign(query, env.apiSecret), env.apiKey));
    match reply {
      case Unreachable(e) => res := Failure(e);
      case Malformed(_, parseError) => res := Failure(parseError);
      case Answered(ok, msg, orders) =>
        res := if ok then Success(OpenOrders(orders)) else Failure(MsgOr(msg, "Failed to get open orders"));
    }
  }

  const ACTIONS: set<string> := {"place_order", "cancel_order", "get_account", "get_open_orders"}

  /** The request handler: credential checks, then dispatch on `action`. */
  method Handle(db: Database, env: Env, action: string, p: Params, now: nat, replies: Replies,
                store: StoreAnswers, numText: real -> string, sign: (string, string) -> string)
    returns (res: Result<Payload>, sent: Option<Outbound>)
    requires db.Valid()
    modifies db
    ensures db.Valid()
    ensures CredentialError(env).Some? ==> res == Failure(CredentialError(env).value) && sent.None? && unchanged(db)
    ensures CredentialError(env).None? && action !in ACTIONS ==>
      res == Failure("Unknown action: " + action) && sent.None? && unchanged(db)
    ensures sent.None? ==> res.Failure?
    ensures sent.Some? ==> sent.value.apiKey == env.apiKey && sent.value.signature == sign(sent.value.query, env.apiSecret)
    ensures CredentialError(env).None? && action == "place_order" ==>
      (sent.Some? <==> !MissingOrderField(p) && !PriceMissing(p))
    ensures CredentialError(env).None? && action == "cancel_order" ==> (sent.Some? <==> p.symbol != "" && p.orderId != "")
    ensures action != "get_account" ==> db.positions == old(db.positions) && db.balances == old(db.balances)
    ensures action == "get_open_orders" ==> unchanged(db)
  {
    var cred := CredentialError(env);
    if cred.Some? {
      return Failure(cred.value), None;
    }
    if action == "place_order" {
      res, sent := PlaceOrder(db, env, p, now, replies.order, store, numText, sign);
    } else if action == "cancel_order" {
      res, sent := CancelOrder(db, env, p, now, replies.cancel, store, sign);
    } else if action == "get_account" {
      res, sent := GetAccount(db, env, now, replies.account, store, sign);
    } else if action == "get_open_orders" {
      res, sent := GetOpenOrders(env, now, replies.openOrders, sign);
    } else {
      res, sent := Failure("Unknown action: " + action), None;
    }
  }
}

=== FILE: exchange.dfy ===
/**
 * The shapes of the futures exchange's JSON answers, as the edge function and the
 * live hook read them. Decimal strings are taken as already parsed numbers; a field
 * that is absent (or an empty string) is `None`.
 */
module Exchange {
  import opened Wrappers

  /** One entry of the account's `assets` list. */
  datatype Asset = Asset(
    asset: string,
    walletBalance: real,
    availableBalance: real,
    marginBalance: real,
    unrealizedProfit: real)

  /** One entry of the account's `positions` list; `positionAmt` is signed (negative is short). */
  datatype ReportedPosition = ReportedPosition(
    symbol: string,
    positionAmt: real,
    entryPrice: real,
    markPrice: Option<real>,
    unrealizedProfit: real,
    leverage: int,
    marginType: string,
    liquidationPrice: real)

  /** The account answer; both lists may be missing from it. */
  datatype AccountSnapshot = AccountSnapshot(
    assets: Option<seq<Asset>>,
    positions: Option<seq<ReportedPosition>>)

  /** An order as the exchange acknowledges it. */
  datatype ExchangeOrder = ExchangeOrder(
    orderId: Option<string>,
    clientOrderId: Option<string>,
    symbol: string,
    side: string,
    orderType: string,
    origQty: real,
    price: Option<real>,
    status: string,
    executedQty: Option<real>,
    avgPrice: Option<real>)

  const USDT := "USDT"

  /** `assets?.find(a => a.asset === name)`: the first asset with that name, if any. */
  function FindAsset(assets: Option<seq<Asset>>, name: string): (r: Option<Asset>)
    ensures r.None? <==> (assets.None? || forall i :: 0 <= i < |assets.value| ==> assets.value[i].asset != name)
    ensures r.Some? ==> exists k :: 0 <= k < |assets.value| && assets.value[k] == r.value
                                    && forall i :: 0 <= i < k ==> assets.value[i].asset != name
    ensures r.Some? ==> r.value.asset == name
  {
    match assets
    case None => None
    case Some(list) => FirstNamed(list, name)
  }

  function FirstNamed(list: seq<Asset>, name: string): (r: Option<Asset>)
    ensures r.None? <==> forall i :: 0 <= i < |list| ==> list[i].asset != name
    ensures r.Some? ==> exists k :: 0 <= k < |list| && list[k] == r.value
                                    && forall i :: 0 <= i < k ==> list[i].asset != name
    ensures r.Some? ==> r.value.asset == name
  {
    if list == [] then None
    else if list[0].asset == name then Some(list[0])
    else
      var r := FirstNamed(list[1..], name);
      assert r.Some? ==> exists k :: 0 <= k < |list| && list[k] == r.value
                                    && forall i :: 0 <= i < k ==> list[i].asset != name by {
        if r.Some? {
          var k :| 0 <= k < |list[1..]| && list[1..][k] == r.value
                   && forall i :: 0 <= i < k ==> list[1..][i].asset != name;
          assert list[k + 1] == r.value;
        }
      }
      r
  }
}

=== FILE: positions_table.dfy ===
/**
 * The `positions` table as the account reconciliation of binance-trade/index.ts
 * leaves it: a map from symbol to row, folded over the reported positions in order.
 */
module PositionsTable {
  import opened Wrappers
  import opened Exchange
  import opened Rows

  type Table = map<string, PositionRow>

  function Abs(x: real): real {
    if x < 0.0 then -x else x
  }

  /** The row upserted for a reported position with a nonzero amount. */
  function RowOf(p: ReportedPosition): (r: PositionRow)
    requires p.positionAmt != 0.0
    ensures r.symbol == p.symbol
    ensures r.side == LONG <==> p.positionAmt > 0.0
    ensures r.size > 0.0 && (r.size == p.positionAmt || r.size == -p.positionAmt)
    ensures r.entryPrice == p.entryPrice && r.unrealizedPnl == p.unrealizedProfit && r.leverage == p.leverage
    ensures r.marginType == p.marginType && r.liquidationPrice == p.liquidationPrice
  {
    PositionRow(
      p.symbol,
      if p.positionAmt > 0.0 then LONG else SHORT,
      Abs(p.positionAmt),
      p.entryPrice,
      p.unrealizedProfit,
      p.leverage,
      p.marginType,
      p.liquidationPrice)
  }

  /** One iteration of the loop: upsert by symbol on a nonzero amount, delete on zero. */
  function ApplyReport(t: Table, p: ReportedPosition): (r: Table)
    ensures p.symbol in r <==> p.positionAmt != 0.0
    ensures p.symbol in r ==> r[p.symbol] == RowOf(p)
    ensures forall s :: s != p.symbol ==> Entry(r, s) == Entry(t, s)
  {
    if p.positionAmt != 0.0 then t[p.symbol := RowOf(p)] else t - {p.symbol}
  }

  /** The table after the loop has handled every reported position, first to last. */
  function ApplySnapshot(t: Table, ps: seq<ReportedPosition>): (r: Table)
    ensures forall s :: (forall i :: 0 <= i < |ps| ==> ps[i].symbol != s) ==> Entry(r, s) == Entry(t, s)
  {
    if ps == [] then t else ApplyReport(ApplySnapshot(t, ps[..|ps| - 1]), ps[|ps| - 1])
  }

  /** What a table holds for a symbol. */
  function Entry(t: Table, s: string): Option<PositionRow> {
    if s in t then Some(t[s]) else None
  }

  /** What a single report leaves in the table for its symbol. */
  function Outcome(p: ReportedPosition): Option<PositionRow> {
    if p.positionAmt != 0.0 then Some(RowOf(p)) else None
  }

  /** The last report for a symbol, if the snapshot has one. */
  function LastReport(ps: seq<ReportedPosition>, s: string): (r: Option<ReportedPosition>)
    ensures r.None? <==> forall i :: 0 <= i < |ps| ==> ps[i].symbol != s
    ensures r.Some? ==> r.value.symbol == s
    ensures r.Some? ==> exists k :: 0 <= k < |ps| && ps[k] == r.value
                                    && forall i :: k < i < |ps| ==> ps[i].symbol != s
  {
    if ps == [] then None
    else if ps[|ps| - 1].symbol == s then Some(ps[|ps| - 1])
    else
      var pre := ps[..|ps| - 1];
      var r := LastReport(pre, s);
      assert r.Some? ==> exists k :: 0 <= k < |ps| && ps[k] == r.value
                                      && forall i :: k < i < |ps| ==> ps[i].symbol != s by {
        if r.Some? {
          var k :| 0 <= k < |pre| && pre[k] == r.value
                   && forall i :: k < i < |pre| ==> pre[i].symbol != s;
          assert ps[k] == r.value;
        }
      }
      assert r.None? <==> forall i :: 0 <= i < |ps| ==> ps[i].symbol != s by {
        assert forall i :: 0 <= i < |pre| ==> pre[i] == ps[i];
      }
      r
  }

  /** The invariant the table keeps: rows sit under their own symbol and have positive size. */
  ghost predicate TableValid(t: Table) {
    forall s :: s in t ==> t[s].symbol == s && t[s].size > 0.0
  }

  /**
   * After reconciliation a symbol holds what its last report says (a row for a nonzero
   * amount, nothing for zero); a symbol the snapshot does not report is untouched.
   */
  lemma {:induction false} ApplySnapshotAt(t: Table, ps: seq<ReportedPosition>, s: string)
    ensures Entry(ApplySnapshot(t, ps), s) ==
            match LastReport(ps, s)
            case None => Entry(t, s)
            case Some(p) => Outcome(p)
  {
    if ps != [] {
      ApplySnapshotAt(t, ps[..|ps| - 1], s);
    }
  }

  /** Two tables that hold the same thing for every symbol are equal. */
  lemma SameEntries(t1: Table, t2: Table)
    requires forall s :: Entry(t1, s) == Entry(t2, s)
    ensures t1 == t2
  {
    assert t1.Keys == t2.Keys by {
      forall s ensures s in t1 <==> s in t2 {
        assert Entry(t1, s) == Entry(t2, s);
      }
    }
    forall s | s in t1 ensures t1[s] == t2[s] {
      assert Entry(t1, s) == Entry(t2, s);
    }
  }

  /** Applying the same account snapshot twice leaves the same table as applying it once. */
  lemma ApplySnapshotIdempotent(t: Table, ps: seq<ReportedPosition>)
    ensures ApplySnapshot(ApplySnapshot(t, ps), ps) == ApplySnapshot(t, ps)
  {
    var once := ApplySnapshot(t, ps);
    forall s ensures Entry(ApplySnapshot(once, ps), s) == Entry(once, s) {
      ApplySnapshotAt(once, ps, s);
      ApplySnapshotAt(t, ps, s);
    }
    SameEntries(ApplySnapshot(once, ps), once);
  }

  /** A position reported with zero amount is gone after reconciliation, whatever was stored. */
  lemma ClosedPositionIsDeleted(t: Table, ps: seq<ReportedPosition>, s: string)
    requires LastReport(ps, s).Some? && LastReport(ps, s).value.positionAmt == 0.0
    ensures s !in ApplySnapshot(t, ps)
  {
    ApplySnapshotAt(t, ps, s);
  }

  /** Reconciliation keeps the table valid: no row of size zero is ever stored. */
  lemma {:induction false} ApplySnapshotKeepsValid(t: Table, ps: seq<ReportedPosition>)
    requires TableValid(t)
    ensures TableValid(ApplySnapshot(t, ps))
  {
    if ps != [] {
      ApplySnapshotKeepsValid(t, ps[..|ps| - 1]);
    }
  }
}

=== FILE: query.dfy ===
/**
 * The signed query strings of the edge function (binance-trade/index.ts): ordered
 * `key=value` pairs joined by `&`, with the signature appended as the last pair.
 */
module Query {
  import opened Text

  /** One request parameter; the order of a parameter list is significant. */
  datatype Param = Param(key: string, value: string)

  function Field(p: Param): string {
    p.key + "=" + p.value
  }

  /** `Object.entries(data).map(([k, v]) => `${k}=${v}`).join('&')`. */
  function Render(ps: seq<Param>): (q: string)
    ensures q == "" <==> ps == []
    ensures ps != [] ==> |Field(ps[0])| <= |q| && q[..|Field(ps[0])|] == Field(ps[0])
    ensures |q| >= 2 * |ps| - 1
  {
    if |ps| == 0 then ""
    else if |ps| == 1 then Field(ps[0])
    else Field(ps[0]) + "&" + Render(ps[1..])
  }

  function Keys(ps: seq<Param>): (ks: seq<string>)
    ensures |ks| == |ps| && forall i :: 0 <= i < |ps| ==> ks[i] == ps[i].key
  {
    if ps == [] then [] else [ps[0].key] + Keys(ps[1..])
  }

  /** Parameters whose rendering can be read back unambiguously. */
  predicate Plain(ps: seq<Param>) {
    forall i :: 0 <= i < |ps| ==> '&' !in ps[i].key && '=' !in ps[i].key && '&' !in ps[i].value
  }

  // ---- Reading a query back: the inverse of Render ----

  function IndexOf(s: string, c: char): (i: nat)
    requires c in s
    ensures i < |s| && s[i] == c && c !in s[..i]
  {
    if s[0] == c then 0 else 1 + IndexOf(s[1..], c)
  }

  function SplitOn(s: string, c: char): (parts: seq<string>)
    ensures |parts| >= 1
    decreases |s|
  {
    if c !in s then [s]
    else
      var i := IndexOf(s, c);
      [s[..i]] + SplitOn(s[i + 1..], c)
  }

  function ParseField(f: string): Param {
    if '=' in f then
      var i := IndexOf(f, '=');
      Param(f[..i], f[i + 1..])
    else Param(f, "")
  }

  function ParseQuery(q: string): (ps: seq<Param>) {
    var parts := SplitOn(q, '&');
    seq(|parts|, i requires 0 <= i < |parts| => ParseField(parts[i]))
  }

  lemma {:induction false} IndexOfAfterPrefix(a: string, c: char, b: string)
    requires c !in a
    ensures IndexOf(a + [c] + b, c) == |a|
  {
    if a != [] {
      assert (a + [c] + b)[1..] == a[1..] + [c] + b;
      IndexOfAfterPrefix(a[1..], c, b);
    }
  }

  lemma SplitAtFirst(a: string, c: char, b: string)
    requires c !in a
    ensures SplitOn(a + [c] + b, c) == [a] + SplitOn(b, c)
  {
    var s := a + [c] + b;
    assert s[|a|] == c;
    IndexOfAfterPrefix(a, c, b);
    assert s[..|a|] == a;
    assert s[|a| + 1..] == b;
  }

  lemma ParseFieldOf(p: Param)
    requires '=' !in p.key
    ensures ParseField(Field(p)) == p
  {
    var f := Field(p);
    assert f == p.key + ['='] + p.value;
    IndexOfAfterPrefix(p.key, '=', p.value);
    assert f[..|p.key|] == p.key;
    assert f[|p.key| + 1..] == p.value;
  }

  lemma {:induction false} SplitRendered(ps: seq<Param>)
    requires |ps| >= 1 && Plain(ps)
    ensures SplitOn(Render(ps), '&') == seq(|ps|, i requires 0 <= i < |ps| => Field(ps[i]))
  {
    assert '&' !in Field(ps[0]) by {
      assert Field(ps[0]) == ps[0].key + "=" + ps[0].value;
    }
    if |ps| == 1 {
    } else {
      assert Plain(ps[1..]) by {
        forall i | 0 <= i < |ps[1..]|
          ensures '&' !in ps[1..][i].key && '=' !in ps[1..][i].key && '&' !in ps[1..][i].value
        {
          assert ps[1..][i] == ps[i + 1];
        }
      }
      SplitRendered(ps[1..]);
      assert Render(ps) == Field(ps[0]) + ['&'] + Render(ps[1..]);
      SplitAtFirst(Field(ps[0]), '&', Render(ps[1..]));
    }
  }

  /** A rendered query reads back as the same parameters, in the same order. */
  lemma RenderRoundTrip(ps: seq<Param>)
    requires |ps| >= 1 && Plain(ps)
    ensures ParseQuery(Render(ps)) == ps
  {
    SplitRendered(ps);
    var parts := SplitOn(Render(ps), '&');
    forall i | 0 <= i < |ps| ensures ParseField(parts[i]) == ps[i] {
      ParseFieldOf(ps[i]);
    }
  }

  /** Appending a parameter appends one `&key=value` field to the rendering. */
  lemma {:induction false} RenderAppend(ps: seq<Param>, p: Param)
    requires |ps| >= 1
    ensures Render(ps + [p]) == Render(ps) + "&" + Field(p)
  {
    if |ps| == 1 {
      assert (ps + [p])[1..] == [p];
    } else {
      assert (ps + [p])[1..] == ps[1..] + [p];
      RenderAppend(ps[1..], p);
    }
  }

  // ---- Signing ----

  /** `${query}&signature=${signature}`, the query the exchange receives. */
  function WithSignature(query: string, signature: string): string {
    query + "&" + "signature=" + signature
  }

  /**
   * The signature is computed over exactly the rendered parameters and travels as
   * their last parameter.
   */
  lemma SignatureIsLastParam(ps: seq<Param>, secret: string, sign: (string, string) -> string)
    requires |ps| >= 1
    ensures var sig := sign(Render(ps), secret);
            WithSignature(Render(ps), sig) == Render(ps + [Param("signature", sig)])
  {
    SignatureAppended(ps, sign(Render(ps), secret));
  }

  lemma SignatureAppended(ps: seq<Param>, sig: string)
    requires |ps| >= 1
    ensures WithSignature(Render(ps), sig) == Render(ps + [Param("signature", sig)])
  {
    var last := Param("signature", sig);
    RenderAppend(ps, last);
    SignatureFieldText(sig);
    var head := Render(ps) + "&";
    assert WithSignature(Render(ps), sig) == head + ("signature=" + sig);
  }

  lemma SignatureFieldText(sig: string)
    ensures Field(Param("signature", sig)) == "signature=" + sig
  {
    assert "signature" + "=" == "signature=";
  }

  /** The signed query still reads back as the parameters followed by the signature. */
  lemma SignedQueryParses(ps: seq<Param>, secret: string, sign: (string, string) -> string)
    requires |ps| >= 1 && Plain(ps) && '&' !in sign(Render(ps), secret)
    ensures ParseQuery(WithSignature(Render(ps), sign(Render(ps), secret)))
            == ps + [Param("signature", sign(Render(ps), secret))]
  {
    SignedParamsParse(ps, sign(Render(ps), secret));
  }

  lemma SignedParamsParse(ps: seq<Param>, sig: string)
    requires |ps| >= 1 && Plain(ps) && '&' !in sig
    ensures ParseQuery(WithSignature(Render(ps), sig)) == ps + [Param("signature", sig)]
  {
    var last := Param("signature", sig);
    SignatureParamPlain(sig);
    PlainAppend(ps, [last]);
    SignedRoundTrip(ps, sig);
  }

  lemma SignedRoundTrip(ps: seq<Param>, sig: string)
    requires |ps| >= 1 && Plain(ps + [Param("signature", sig)])
    ensures ParseQuery(WithSignature(Render(ps), sig)) == ps + [Param("signature", sig)]
  {
    SignatureAppended(ps, sig);
    RenderRoundTrip(ps + [Param("signature", sig)]);
  }

  lemma SignatureParamPlain(sig: string)
    requires '&' !in sig
    ensures Plain([Param("signature", sig)])
  {
    var k := "signature";
    assert forall j :: 0 <= j < |k| ==> k[j] != '&' && k[j] != '=';
  }

  lemma PlainAppend(a: seq<Param>, b: seq<Param>)
    requires Plain(a) && Plain(b)
    ensures Plain(a + b)
  {
    var ab := a + b;
    forall i | 0 <= i < |ab|
      ensures '&' !in ab[i].key && '=' !in ab[i].key && '&' !in ab[i].value
    {
      if i < |a| { assert ab[i] == a[i]; } else { assert ab[i] == b[i - |a|]; }
    }
  }
}

=== FILE: rows.dfy ===
/**
 * The rows of the durable store's tables, as the edge function writes them and the
 * client reads them back. Server-assigned columns that no operation here inspects
 * (`updated_at`, `raw_response`, `executed_at`, commissions) are left out.
 */
module Rows {
  import opened Wrappers

  datatype PositionSide = LONG | SHORT

  /** A row of `positions`, unique by symbol. */
  datatype PositionRow = PositionRow(
    symbol: string,
    side: PositionSide,
    size: real,
    entryPrice: real,
    unrealizedPnl: real,
    leverage: int,
    marginType: string,
    liquidationPrice: real)

  /** A row of `account_balance`. */
  datatype BalanceRow = BalanceRow(
    totalBalance: real,
    availableBalance: real,
    marginBalance: real,
    unrealizedPnl: real,
    asset: string)

  /** A row of `orders`; `id` and `createdAt` are assigned by the store. */
  datatype OrderRow = OrderRow(
    id: string,
    orderId: Option<string>,
    clientOrderId: Option<string>,
    symbol: string,
    side: string,
    orderType: string,
    quantity: real,
    price: Option<real>,
    status: string,
    filledQuantity: Option<real>,
    averagePrice: Option<real>,
    createdAt: string)

  /** A row of `price_tickers` as a change notification carries it. */
  datatype TickerRow = TickerRow(
    symbol: string,
    price: real,
    priceChange: Option<real>,
    priceChangePercent: Option<real>,
    high24h: Option<real>,
    low24h: Option<real>,
    volume24h: Option<real>)

  /** A row of `trading_logs` as the edge function writes it (details and latency left out). */
  datatype LogRow = LogRow(logType: string, message: string)
}

=== FILE: text.dfy ===
/** The few pieces of text rendering the model needs. */
module Text {
  import opened Wrappers

  predicate IsDigit(c: char) {
    '0' <= c <= '9'
  }

  function DigitChar(d: nat): (c: char)
    requires d < 10
    ensures IsDigit(c) && DigitValue(c) == d
  {
    "0123456789"[d]
  }

  /** The decimal rendering of a non-negative integer, as `${n}` produces it for an integral number. */
  function DecimalText(n: nat): (s: string)
    ensures |s| >= 1
    ensures forall i :: 0 <= i < |s| ==> IsDigit(s[i])
    ensures n >= 10 ==> s[0] != '0'
  {
    if n < 10 then [DigitChar(n)] else DecimalText(n / 10) + [DigitChar(n % 10)]
  }

  function DigitValue(c: char): (d: nat)
    requires IsDigit(c)
    ensures d < 10
  {
    (c as int) - ('0' as int)
  }

  /** Reads back a string of digits as a number. */
  function DecimalValue(s: string): nat
    requires forall i :: 0 <= i < |s| ==> IsDigit(s[i])
  {
    if s == [] then 0
    else 10 * DecimalValue(s[..|s| - 1]) + DigitValue(s[|s| - 1])
  }

  /** Rendering a number in decimal and reading it back gives the number. */
  lemma {:induction false} DecimalRoundTrip(n: nat)
    ensures DecimalValue(DecimalText(n)) == n
  {
    var s := DecimalText(n);
    if n >= 10 {
      DecimalRoundTrip(n / 10);
      assert s[..|s| - 1] == DecimalText(n / 10);
    }
  }

  /** Different numbers have different decimal renderings. */
  lemma DecimalTextInjective(m: nat, n: nat)
    requires DecimalText(m) == DecimalText(n)
    ensures m == n
  {
    DecimalRoundTrip(m);
    DecimalRoundTrip(n);
  }

  /** JavaScript's `s.slice(-n)` for n > 0: the last n characters, or all of s when it is shorter. */
  function TakeLast(s: string, n: nat): (r: string)
    requires n > 0
    ensures |r| == if |s| < n then |s| else n
    ensures s == s[..|s| - |r|] + r
  {
    if |s| <= n then s else s[|s| - n..]
  }

  /** The `a || b` of two strings: the first unless it is empty. */
  function OrElse(s: string, fallback: string): (r: string)
    ensures r == s || r == fallback
    ensures r == fallback <==> s == [] || s == fallback
  {
    if s != [] then s else fallback
  }

  /** `msg || fallback` for a message that may be missing. */
  function MsgOr(msg: Option<string>, fallback: string): (r: string)
    ensures r == fallback || msg == Some(r)
    ensures r == fallback <==> msg.None? || msg == Some("") || msg == Some(fallback)
  {
    match msg
    case None => fallback
    case Some(m) => OrElse(m, fallback)
  }

  /** `${msg}` in a template: a missing message renders as "undefined". */
  function MsgText(msg: Option<string>): string {
    match msg
    case None => "undefined"
    case Some(m) => m
  }
}

=== FILE: trading_logs.dfy ===
/**
 * The trading-log panel (src/components/TradingLogs.tsx): a list of at most 50 entries, newest
 * first, loaded from the `trading_logs` table and extended by INSERT notifications, and the
 * lookup that picks each entry's icon and colour from its log type.
 */
module TradingLogs {

  datatype LogEntry = LogEntry(id: string, logType: string, message: string, createdAt: string)

  const LOG_CAP: nat := 50

  function Min(a: nat, b: nat): nat {
    if a < b then a else b
  }

  /** `[entry, ...prev].slice(0, 50)`. */
  function Prepend(e: LogEntry, logs: seq<LogEntry>): (r: seq<LogEntry>)
    ensures |r| == Min(|logs| + 1, LOG_CAP)
    ensures r[0] == e
    ensures r[1..] == logs[..Min(|logs|, LOG_CAP - 1)]
  {
    var r := ([e] + logs)[..Min(|logs| + 1, LOG_CAP)];
    assert r[1..] == logs[..Min(|logs|, LOG_CAP - 1)];
    r
  }

  function Reverse(s: seq<LogEntry>): (r: seq<LogEntry>)
    ensures |r| == |s|
    ensures forall i :: 0 <= i < |s| ==> r[i] == s[|s| - 1 - i]
  {
    if s == [] then [] else Reverse(s[1..]) + [s[0]]
  }

  /**
   * What the initial load asks the store for: entries ordered by creation time descending,
   * at most 50. `table` lists the stored entries in creation order.
   */
  function NewestFirst(table: seq<LogEntry>, limit: nat): (r: seq<LogEntry>)
    ensures |r| == Min(|table|, limit)
    ensures forall i :: 0 <= i < |r| ==> r[i] == table[|table| - 1 - i]
  {
    Reverse(table)[..Min(|table|, limit)]
  }

  /**
   * An INSERT notification keeps the panel equal to what a reload would show: prepending the
   * new entry to the newest 50 gives the newest 50 of the extended table.
   */
  lemma InsertMatchesReload(table: seq<LogEntry>, e: LogEntry)
    ensures Prepend(e, NewestFirst(table, LOG_CAP)) == NewestFirst(table + [e], LOG_CAP)
  {
    var lhs := Prepend(e, NewestFirst(table, LOG_CAP));
    var rhs := NewestFirst(table + [e], LOG_CAP);
    assert |lhs| == |rhs|;
    forall i | 0 <= i < |lhs|
      ensures lhs[i] == rhs[i]
    {
      if i > 0 {
        assert lhs[i] == lhs[1..][i - 1];
      }
    }
  }

  /** The icons the panel draws. */
  datatype Icon = InfoIcon | AlertIcon | CrossIcon | CheckIcon

  datatype LogStyle = LogStyle(icon: Icon, className: string)

  const INFO_STYLE := LogStyle(InfoIcon, "text-primary")

  const LOG_TYPE_CONFIG: map<string, LogStyle> := map[
    "INFO" := INFO_STYLE,
    "WARNING" := LogStyle(AlertIcon, "text-warning"),
    "ERROR" := LogStyle(CrossIcon, "text-destructive"),
    "ORDER" := LogStyle(CheckIcon, "text-success"),
    "POSITION" := LogStyle(CheckIcon, "text-primary"),
    "BALANCE" := LogStyle(InfoIcon, "text-muted-foreground")]

  /**
   * The members every plain object literal inherits from `Object.prototype`; indexing the
   * config with one of them yields that member, a function or object, which is truthy.
   */
  const PROTOTYPE_MEMBERS: set<string> := {
    "constructor", "toString", "toLocaleString", "valueOf", "hasOwnProperty",
    "isPrototypeOf", "propertyIsEnumerable", "__proto__", "__defineGetter__",
    "__defineSetter__", "__lookupGetter__", "__lookupSetter__"}

  /** What `logTypeConfig[t] || logTypeConfig.INFO` evaluates to. */
  datatype Lookup = Styled(style: LogStyle) | InheritedMember(name: string)

  /** The lookup as written: an own key, else an inherited member, else the INFO fallback. */
  function StyleLookupAsWritten(logType: string): (r: Lookup)
    ensures logType in LOG_TYPE_CONFIG ==> r == Styled(LOG_TYPE_CONFIG[logType])
    ensures r.InheritedMember? <==> logType !in LOG_TYPE_CONFIG && logType in PROTOTYPE_MEMBERS
    ensures logType !in LOG_TYPE_CONFIG && logType !in PROTOTYPE_MEMBERS ==> r == Styled(INFO_STYLE)
  {
    if logType in LOG_TYPE_CONFIG then Styled(LOG_TYPE_CONFIG[logType])
    else if logType in PROTOTYPE_MEMBERS then InheritedMember(logType)
    else Styled(INFO_STYLE)
  }

  /** The log type "constructor" is not styled as INFO: it gets `Object`, not a style. */
  lemma ConstructorTypeSkipsFallback()
    ensures StyleLookupAsWritten("constructor") == InheritedMember("constructor")
    ensures StyleLookupAsWritten("constructor") != Styled(INFO_STYLE)
  {
    assert "constructor" in PROTOTYPE_MEMBERS;
    assert "constructor" !in LOG_TYPE_CONFIG by {
      assert LOG_TYPE_CONFIG.Keys == {"INFO", "WARNING", "ERROR", "ORDER", "POSITION", "BALANCE"};
    }
  }

  /** The intended lookup: own keys only, every other type styled as INFO. */
  function StyleOf(logType: string): (s: LogStyle)
    ensures logType in LOG_TYPE_CONFIG ==> s == LOG_TYPE_CONFIG[logType]
    ensures logType !in LOG_TYPE_CONFIG ==> s == INFO_STYLE
    ensures s in LOG_TYPE_CONFIG.Values
  {
    assert LOG_TYPE_CONFIG["INFO"] == INFO_STYLE;
    if logType in LOG_TYPE_CONFIG then LOG_TYPE_CONFIG[logType] else INFO_STYLE
  }

  /** The two lookups differ only on the inherited member names. */
  lemma StyleOfAgreesOffPrototype(logType: string)
    requires logType !in PROTOTYPE_MEMBERS
    ensures StyleLookupAsWritten(logType) == Styled(StyleOf(logType))
  {
  }

  /** The panel's state. */
  class LogPanel {
    var logs: seq<LogEntry>
    var isLoading: bool

    predicate Valid()
      reads this
    {
      |logs| <= LOG_CAP
    }

    constructor ()
      ensures logs == [] && !isLoading && Valid()
    {
      logs, isLoading := [], false;
    }

    /**
     * What each listed entry is drawn with, by the lookup as written: a configured type its
     * style, an inherited member name no style at all, any other type the INFO style.
     */
    function Styles(): (r: seq<Lookup>)
      reads this
      ensures |r| == |logs|
      ensures forall i :: 0 <= i < |r| && logs[i].logType in LOG_TYPE_CONFIG ==>
        r[i] == Styled(LOG_TYPE_CONFIG[logs[i].logType])
      ensures forall i :: 0 <= i < |r| ==>
        (r[i].InheritedMember? <==> logs[i].logType !in LOG_TYPE_CONFIG && logs[i].logType in PROTOTYPE_MEMBERS)
      ensures forall i :: 0 <= i < |r| && logs[i].logType !in LOG_TYPE_CONFIG && logs[i].logType !in PROTOTYPE_MEMBERS ==>
        r[i] == Styled(INFO_STYLE)
    {
      seq(|logs|, i requires 0 <= i < |logs| reads this => StyleLookupAsWritten(logs[i].logType))
    }

    /** While no entry's type is an inherited member name, the panel draws the intended styles. */
    lemma StylesAsIntended()
      requires forall i :: 0 <= i < |logs| ==> logs[i].logType !in PROTOTYPE_MEMBERS
      ensures forall i :: 0 <= i < |logs| ==> Styles()[i] == Styled(StyleOf(logs[i].logType))
    {
      forall i | 0 <= i < |logs|
        ensures Styles()[i] == Styled(StyleOf(logs[i].logType))
      {
        StyleOfAgreesOffPrototype(logs[i].logType);
      }
    }

    /**
     * `fetchLogs`: on success the newest 50 stored entries replace the list; on failure the list
     * is kept. The loading flag is cleared either way.
     */
    method FetchLogs(table: seq<LogEntry>, failed: bool)
      requires Valid()
      modifies this
      ensures Valid() && !isLoading
      ensures logs == if failed then old(logs) else NewestFirst(table, LOG_CAP)
    {
      isLoading := true;
      if !failed {
        logs := NewestFirst(table, LOG_CAP);
      }
      isLoading := false;
    }

    /** The INSERT handler. */
    method OnInsert(e: LogEntry)
      requires Valid()
      modifies this`logs
      ensures Valid()
      ensures logs == Prepend(e, old(logs))
    {
      logs := Prepend(e, logs);
    }
  }
}

=== FILE: use_binance.dfy ===
/**
 * The live data source (src/hooks/useBinance.ts): React state updated by polls of the
 * edge functions, by the command handlers and by row-change notifications of the store.
 * What an invocation or a store query answers is a parameter of the method handling it.
 */
module UseBinance {
  import opened Wrappers
  import opened Text
  import opened Exchange
  import opened Rows
  import opened Views
  import opened PositionsTable

  /** What `supabase.functions.invoke` resolves to. */
  datatype Invoke<T> =
    | InvokeError(message: string)                      // `error` is set
    | Invoked(success: bool, error: Option<string>, data: T)

  datatype Toast = Toast(title: string, description: string, destructive: bool)

  /** The client record for one reported position. */
  function PositionOf(p: ReportedPosition): (x: Position)
    requires p.positionAmt != 0.0
    ensures x.id == p.symbol && x.symbol == p.symbol
    ensures x.side == LONG <==> p.positionAmt > 0.0
    ensures x.size > 0.0 && (x.size == p.positionAmt || x.size == -p.positionAmt)
    ensures x.markPrice == if p.markPrice.Some? then p.markPrice.value else p.entryPrice
    ensures x.entryPrice == p.entryPrice && x.unrealizedPnl == p.unrealizedProfit && x.leverage == p.leverage
  {
    Position(
      p.symbol, p.symbol,
      if p.positionAmt > 0.0 then LONG else SHORT,
      Abs(p.positionAmt),
      p.entryPrice,
      p.markPrice.GetOr(p.entryPrice),
      p.unrealizedProfit,
      p.leverage)
  }

  /** `positions.filter(p => amount !== 0).map(...)`. */
  function Active(ps: seq<ReportedPosition>): (r: seq<Position>)
    ensures |r| <= |ps|
    ensures forall i :: 0 <= i < |r| ==> r[i].size > 0.0
  {
    if ps == [] then []
    else (if ps[0].positionAmt != 0.0 then [PositionOf(ps[0])] else []) + Active(ps[1..])
  }

  /** `positions?.filter(...).map(...) || []`: a missing list gives no positions. */
  function ActivePositions(reported: Option<seq<ReportedPosition>>): (r: seq<Position>)
    ensures reported.None? ==> r == []
  {
    match reported
    case None => []
    case Some(ps) => Active(ps)
  }

  /** Filtering distributes over concatenation: the original order is kept. */
  lemma {:induction false} ActiveAppend(a: seq<ReportedPosition>, b: seq<ReportedPosition>)
    ensures Active(a + b) == Active(a) + Active(b)
  {
    if a != [] {
      assert (a + b)[0] == a[0];
      assert (a + b)[1..] == a[1..] + b;
      ActiveAppend(a[1..], b);
    } else {
      assert a + b == b;
    }
  }

  /** The active positions are exactly the reported ones with a nonzero amount. */
  lemma {:induction false} ActiveMember(ps: seq<ReportedPosition>, x: Position)
    ensures x in Active(ps) <==> exists i :: 0 <= i < |ps| && ps[i].positionAmt != 0.0 && x == PositionOf(ps[i])
  {
    if ps != [] {
      ActiveMember(ps[1..], x);
      if x in Active(ps[1..]) {
        var i :| 0 <= i < |ps[1..]| && ps[1..][i].positionAmt != 0.0 && x == PositionOf(ps[1..][i]);
        assert ps[i + 1] == ps[1..][i];
      }
      if exists i :: 0 <= i < |ps| && ps[i].positionAmt != 0.0 && x == PositionOf(ps[i]) {
        var i :| 0 <= i < |ps| && ps[i].positionAmt != 0.0 && x == PositionOf(ps[i]);
        if i > 0 {
          assert ps[1..][i - 1] == ps[i];
        }
      }
    }
  }

  /** When no reported amount is zero, every report becomes a position, in order. */
  lemma {:induction false} ActiveKeepsAllNonzero(ps: seq<ReportedPosition>)
    requires forall i :: 0 <= i < |ps| ==> ps[i].positionAmt != 0.0
    ensures |Active(ps)| == |ps|
    ensures forall i :: 0 <= i < |ps| ==> Active(ps)[i] == PositionOf(ps[i])
  {
    if ps != [] {
      ActiveKeepsAllNonzero(ps[1..]);
    }
  }

  predicate DistinctSymbols(ps: seq<ReportedPosition>) {
    forall i, j :: 0 <= i < j < |ps| ==> ps[i].symbol != ps[j].symbol
  }

  /**
   * The live view agrees with the store: for a snapshot that reports each symbol once,
   * the positions the hook shows and the rows reconciliation leaves in an empty table
   * have the same symbols, sides and sizes.
   */
  lemma LiveViewMatchesStore(ps: seq<ReportedPosition>)
    requires DistinctSymbols(ps)
    ensures forall x :: x in Active(ps) ==>
      var t := ApplySnapshot(map[], ps);
      x.symbol in t && t[x.symbol].side == x.side && t[x.symbol].size == x.size
    ensures forall s :: s in ApplySnapshot(map[], ps) ==> exists x :: x in Active(ps) && x.symbol == s
  {
    var t := ApplySnapshot(map[], ps);
    forall x | x in Active(ps)
      ensures x.symbol in t && t[x.symbol].side == x.side && t[x.symbol].size == x.size
    {
      ActiveMember(ps, x);
      var i :| 0 <= i < |ps| && ps[i].positionAmt != 0.0 && x == PositionOf(ps[i]);
      LastReportIsOnly(ps, i);
      ApplySnapshotAt(map[], ps, x.symbol);
    }
    forall s | s in t
      ensures exists x :: x in Active(ps) && x.symbol == s
    {
      ApplySnapshotAt(map[], ps, s);
      var p := LastReport(ps, s).value;
      var k :| 0 <= k < |ps| && ps[k] == p;
      ActiveMember(ps, PositionOf(p));
    }
  }

  lemma LastReportIsOnly(ps: seq<ReportedPosition>, i: nat)
    requires DistinctSymbols(ps) && i < |ps|
    ensures LastReport(ps, ps[i].symbol) == Some(ps[i])
  {
    var r := LastReport(ps, ps[i].symbol);
    var k :| 0 <= k < |ps| && ps[k] == r.value && forall j :: k < j < |ps| ==> ps[j].symbol != ps[i].symbol;
    assert k == i;
  }

  /** The balance shown for the USDT asset. */
  function BalanceOf(a: Asset): (b: AccountBalance)
    ensures b.totalBalance == a.walletBalance && b.availableBalance == a.availableBalance
    ensures b.marginBalance == a.marginBalance && b.unrealizedPnl == a.unrealizedProfit
  {
    AccountBalance(a.walletBalance, a.availableBalance, a.marginBalance, a.unrealizedProfit)
  }

  /** The balance shown for a notified `account_balance` row; its asset column is not shown. */
  function BalanceOfRow(row: BalanceRow): (b: AccountBalance)
    ensures b.totalBalance == row.totalBalance && b.availableBalance == row.availableBalance
    ensures b.marginBalance == row.marginBalance && b.unrealizedPnl == row.unrealizedPnl
  {
    AccountBalance(row.totalBalance, row.availableBalance, row.marginBalance, row.unrealizedPnl)
  }

  /** What `fetchAccount` leaves in (balance, positions, isConnected). */
  function AccountEffect(balance: Option<AccountBalance>, positions: seq<Position>, connected: bool,
                         reply: Invoke<Option<AccountSnapshot>>)
    : (r: (Option<AccountBalance>, seq<Position>, bool))
    ensures reply.InvokeError? ==> r == (balance, positions, false)
    ensures reply.Invoked? && reply.success && reply.data.Some? ==>
      && r.2
      && r.1 == ActivePositions(reply.data.value.positions)
      && (FindAsset(reply.data.value.assets, USDT).None? ==> r.0 == balance)
      && (FindAsset(reply.data.value.assets, USDT).Some? ==>
            r.0 == Some(BalanceOf(FindAsset(reply.data.value.assets, USDT).value)))
    ensures reply.Invoked? && !(reply.success && reply.data.Some?) ==> r == (balance, positions, connected)
  {
    match reply
    case InvokeError(_) => (balance, positions, false)
    case Invoked(success, _, data) =>
      if success && data.Some? then
        var usdt := FindAsset(data.value.assets, USDT);
        (if usdt.Some? then Some(BalanceOf(usdt.value)) else balance, ActivePositions(data.value.positions), true)
      else (balance, positions, connected)
  }

  /** The client record for a stored order row. */
  function FormatOrder(o: OrderRow): (x: Order)
    ensures x.id == o.id && x.orderId == o.orderId && x.status == o.status && x.quantity == o.quantity
    ensures x.symbol == o.symbol && x.side == o.side && x.orderType == o.orderType && x.createdAt == o.createdAt
    ensures x.price.None? <==> o.price.None? || o.price.value == 0.0
    ensures x.price.Some? ==> x.price == o.price
    ensures x.filledQuantity == if o.filledQuantity.Some? then o.filledQuantity.value else 0.0
  {
    Order(
      o.id, o.orderId, o.symbol, o.side, o.orderType, o.quantity,
      if o.price.Some? && o.price.value != 0.0 then o.price else None,
      o.status, o.filledQuantity.GetOr(0.0), o.createdAt)
  }

  /** `ordersData?.map(format) || []`: one order per row, in the store's order. */
  function FormatOrders(rows: Option<seq<OrderRow>>): (r: seq<Order>)
    ensures rows.None? ==> r == []
    ensures rows.Some? ==> |r| == |rows.value| && forall i :: 0 <= i < |r| ==> r[i] == FormatOrder(rows.value[i])
  {
    match rows
    case None => []
    case Some(rs) => seq(|rs|, i requires 0 <= i < |rs| => FormatOrder(rs[i]))
  }

  /** The ticker entry after a change notification for its symbol; missing figures become 0. */
  function Patched(t: PriceTicker, row: TickerRow): (u: PriceTicker)
    ensures u.symbol == t.symbol && u.price == row.price
    ensures u.priceChange == (if row.priceChange.Some? then row.priceChange.value else 0.0)
    ensures u.priceChangePercent == (if row.priceChangePercent.Some? then row.priceChangePercent.value else 0.0)
    ensures u.high24h == (if row.high24h.Some? then row.high24h.value else 0.0)
    ensures u.low24h == (if row.low24h.Some? then row.low24h.value else 0.0)
    ensures u.volume24h == (if row.volume24h.Some? then row.volume24h.value else 0.0)
  {
    t.(price := row.price,
       priceChange := row.priceChange.GetOr(0.0),
       priceChangePercent := row.priceChangePercent.GetOr(0.0),
       high24h := row.high24h.GetOr(0.0),
       low24h := row.low24h.GetOr(0.0),
       volume24h := row.volume24h.GetOr(0.0))
  }

  /** `prev.map(p => p.symbol === row.symbol ? {...p, ...} : p)`. */
  function PatchTicker(prices: seq<PriceTicker>, row: TickerRow): (r: seq<PriceTicker>)
    ensures |r| == |prices|
    ensures forall i :: 0 <= i < |prices| ==> r[i].symbol == prices[i].symbol
    ensures forall i :: 0 <= i < |prices| && prices[i].symbol != row.symbol ==> r[i] == prices[i]
    ensures forall i :: 0 <= i < |prices| && prices[i].symbol == row.symbol ==> r[i] == Patched(prices[i], row)
  {
    if prices == [] then []
    else [if prices[0].symbol == row.symbol then Patched(prices[0], row) else prices[0]]
         + PatchTicker(prices[1..], row)
  }

  /** A notification for a symbol the list does not hold changes nothing. */
  lemma PatchUnknownSymbol(prices: seq<PriceTicker>, row: TickerRow)
    requires forall i :: 0 <= i < |prices| ==> prices[i].symbol != row.symbol
    ensures PatchTicker(prices, row) == prices
  {
  }

  /** Applying the same notification twice is the same as applying it once. */
  lemma PatchIdempotent(prices: seq<PriceTicker>, row: TickerRow)
    ensures PatchTicker(PatchTicker(prices, row), row) == PatchTicker(prices, row)
  {
  }

  /** The state of one `useBinance` hook instance. */
  class LiveSource {
    var prices: seq<PriceTicker>
    var balance: Option<AccountBalance>
    var positions: seq<Position>
    var orders: seq<Order>
    var isLoading: bool
    var isConnected: bool
    var toasts: seq<Toast>

    constructor ()
      ensures prices == [] && balance == None && positions == [] && orders == []
      ensures !isLoading && !isConnected && toasts == []
    {
      prices, balance, positions, orders := [], None, [], [];
      isLoading, isConnected, toasts := false, false, [];
    }

    /** What the hook returns: its own state, not in demo mode. */
    function Exposed(): (s: Snapshot)
      reads this
      ensures !s.isDemoMode
      ensures s.prices == prices && s.balance == balance && s.positions == positions
      ensures s.orders == orders && s.isLoading == isLoading && s.isConnected == isConnected
    {
      Snapshot(prices, balance, positions, orders, isLoading, isConnected, false)
    }

    /** `fetchPrices`: a successful poll replaces the tickers and confirms the connection. */
    method FetchPrices(reply: Invoke<seq<PriceTicker>>)
      modifies this`prices, this`isConnected
      ensures reply.Invoked? && reply.success ==> prices == reply.data && isConnected
      ensures !(reply.Invoked? && reply.success) ==> prices == old(prices) && isConnected == old(isConnected)
    {
      if reply.Invoked? && reply.success {
        prices := reply.data;
        isConnected := true;
      }
    }

    /** `fetchAccount`. */
    method FetchAccount(reply: Invoke<Option<AccountSnapshot>>)
      modifies this`balance, this`positions, this`isConnected
      ensures (balance, positions, isConnected) == AccountEffect(old(balance), old(positions), old(isConnected), reply)
    {
      match reply {
        case InvokeError(_) =>
          isConnected := false;
        case Invoked(success, _, data) =>
          if success && data.Some? {
            var usdt := FindAsset(data.value.assets, USDT);
            if usdt.Some? {
              balance := Some(BalanceOf(usdt.value));
            }
            positions := ActivePositions(data.value.positions);
            isConnected := true;
          }
      }
    }

    /** `fetchOrders`: the store's answer to the latest-orders query, or nothing on error. */
    method FetchOrders(reply: Result<Option<seq<OrderRow>>>)
      modifies this`orders
      ensures orders == if reply.Success? then FormatOrders(reply.value) else old(orders)
    {
      if reply.Success? {
        orders := FormatOrders(reply.value);
      }
    }

    /**
     * `placeOrder`: one toast either way, the loading flag cleared either way, the
     * account and orders refreshed on success, the error passed back on failure.
     */
    method PlaceOrder(symbol: string, side: string, orderType: string, quantity: real,
                      price: Option<real>, stopPrice: Option<real>,
                      reply: Invoke<ExchangeOrder>, accountReply: Invoke<Option<AccountSnapshot>>,
                      ordersReply: Result<Option<seq<OrderRow>>>, numText: real -> string)
      returns (r: Result<ExchangeOrder>)
      modifies this
      ensures !isLoading
      ensures r.Failure? <==> reply.InvokeError? || !reply.success
      ensures reply.InvokeError? ==> r == Failure(reply.message)
      ensures reply.Invoked? && !reply.success ==> r == Failure(MsgOr(reply.error, "Order failed"))
      ensures r.Success? ==> r.value == reply.data
      ensures toasts == old(toasts) + [
        if r.Success? then Toast("Order Placed", side + " " + numText(quantity) + " " + symbol + " - Status: " + r.value.status, false)
        else Toast("Order Failed", r.error, true)]
      ensures r.Failure? ==>
        balance == old(balance) && positions == old(positions) && orders == old(orders) && isConnected == old(isConnected)
      ensures r.Success? ==>
        && (balance, positions, isConnected) == AccountEffect(old(balance), old(positions), old(isConnected), accountReply)
        && orders == (if ordersReply.Success? then FormatOrders(ordersReply.value) else old(orders))
      ensures prices == old(prices)
    {
      isLoading := true;
      if reply.InvokeError? {
        r := Failure(reply.message);
      } else if !reply.success {
        r := Failure(MsgOr(reply.error, "Order failed"));
      } else {
        toasts := toasts + [Toast("Order Placed", side + " " + numText(quantity) + " " + symbol
                                  + " - Status: " + reply.data.status, false)];
        FetchAccount(accountReply);
        FetchOrders(ordersReply);
        r := Success(reply.data);
      }
      if r.Failure? {
        toasts := toasts + [Toast("Order Failed", r.error, true)];
      }
      isLoading := false;
    }

    /** `cancelOrder`: like placeOrder, but the error is swallowed after its toast. */
    method CancelOrder<T>(symbol: string, orderId: string, reply: Invoke<T>,
                          ordersReply: Result<Option<seq<OrderRow>>>)
      modifies this
      ensures !isLoading
      ensures var ok := reply.Invoked? && reply.success;
        && toasts == old(toasts) + [
             if ok then Toast("Order Canceled", "Order " + orderId + " has been canceled", false)
             else Toast("Cancel Failed",
                        if reply.InvokeError? then reply.message else MsgOr(reply.error, "Cancel failed"), true)]
        && orders == (if ok && ordersReply.Success? then FormatOrders(ordersReply.value) else old(orders))
      ensures prices == old(prices) && balance == old(balance) && positions == old(positions)
      ensures isConnected == old(isConnected)
    {
      isLoading := true;
      match reply {
        case InvokeError(m) =>
          toasts := toasts + [Toast("Cancel Failed", m, true)];
        case Invoked(success, error, _) =>
          if !success {
            toasts := toasts + [Toast("Cancel Failed", MsgOr(error, "Cancel failed"), true)];
          } else {
            toasts := toasts + [Toast("Order Canceled", "Order " + orderId + " has been canceled", false)];
            FetchOrders(ordersReply);
          }
      }
      isLoading := false;
    }

    /** A `price_tickers` change notification: only the entry of that symbol changes. */
    method OnTickerChange(row: Option<TickerRow>)
      modifies this`prices
      ensures prices == if row.Some? then PatchTicker(old(prices), row.value) else old(prices)
    {
      if row.Some? {
        prices := PatchTicker(prices, row.value);
      }
    }

    /** An `account_balance` change notification replaces the balance. */
    method OnBalanceChange(row: Option<BalanceRow>)
      modifies this`balance
      ensures balance == if row.Some? then Some(BalanceOfRow(row.value)) else old(balance)
    {
      if row.Some? {
        balance := Some(BalanceOfRow(row.value));
      }
    }
  }
}

=== FILE: use_demo_mode.dfy ===
/**
 * The demo data source (src/hooks/useDemoMode.ts): a fixed initial book kept in React state,
 * changed only by the local order commands. The clock and the ISO date rendering are parameters.
 */
module UseDemoMode {
  import opened Wrappers
  import opened Text
  import opened Rows
  import opened Views

  const DEMO_PRICES: seq<PriceTicker> := [
    PriceTicker("BTCUSDT", 104250.50, 1250.30, 1.21, 105500.0, 102800.0, 28500000000.0),
    PriceTicker("ETHUSDT", 3890.25, -45.80, -1.16, 3980.0, 3850.0, 12400000000.0),
    PriceTicker("SOLUSDT", 178.45, 5.23, 3.02, 182.0, 171.0, 3200000000.0),
    PriceTicker("BNBUSDT", 715.80, 12.40, 1.76, 725.0, 698.0, 890000000.0),
    PriceTicker("XRPUSDT", 2.45, 0.08, 3.38, 2.52, 2.35, 2100000000.0),
    PriceTicker("DOGEUSDT", 0.4125, -0.0085, -2.02, 0.428, 0.405, 1850000000.0)]

  const DEMO_BALANCE := AccountBalance(25000.00, 18500.00, 6500.00, 342.50)

  const DEMO_POSITIONS: seq<Position> := [
    Position("pos1", "BTCUSDT", LONG, 0.05, 103500.0, 104250.50, 37.53, 10),
    Position("pos2", "ETHUSDT", SHORT, 1.5, 3920.0, 3890.25, 44.63, 5),
    Position("pos3", "SOLUSDT", LONG, 25.0, 172.80, 178.45, 141.25, 20)]

  /** The five sample orders; their ages (in ms before `now`) are 1, 2, 4, 6 and 8 hours. */
  function DemoOrders(now: int, iso: int -> string): (r: seq<Order>)
    ensures |r| == 5
    ensures forall i :: 0 <= i < |r| ==> r[i].orderId.Some?
    ensures forall i :: 0 <= i < |r| ==> r[i].status == OPEN || r[i].status == FILLED
  {
    [Order("1", Some("ORD001"), "BTCUSDT", "BUY", "LIMIT", 0.02, Some(102000.0), OPEN, 0.0, iso(now - 3600000)),
     Order("2", Some("ORD002"), "ETHUSDT", "SELL", MARKET, 0.5, None, FILLED, 0.5, iso(now - 7200000)),
     Order("3", Some("ORD003"), "SOLUSDT", "BUY", "LIMIT", 10.0, Some(175.0), FILLED, 10.0, iso(now - 14400000)),
     Order("4", Some("ORD004"), "BNBUSDT", "SELL", "STOP_LIMIT", 2.0, Some(700.0), OPEN, 0.0, iso(now - 21600000)),
     Order("5", Some("ORD005"), "XRPUSDT", "BUY", MARKET, 500.0, None, FILLED, 500.0, iso(now - 28800000))]
  }

  /** What the demo `placeOrder` resolves to. */
  datatype OrderAck = OrderAck(orderId: string, status: string)

  const ID_PREFIX := "demo-"
  const ORDER_ID_PREFIX := "DEMO"

  /** `DEMO` followed by the last six digits of the millisecond clock. */
  function DemoOrderId(now: nat): (id: string)
    ensures 5 <= |id| <= 10 && id[..4] == ORDER_ID_PREFIX
    ensures var stamp := DecimalText(now);
      && |id| - 4 == (if |stamp| < 6 then |stamp| else 6)
      && stamp[|stamp| - (|id| - 4)..] == id[4..]
  {
    var stamp := DecimalText(now);
    var tail := TakeLast(stamp, 6);
    assert stamp == stamp[..|stamp| - |tail|] + tail;
    ORDER_ID_PREFIX + tail
  }

  /**
   * Only six clock digits are kept, so the order id repeats every 1,000,000 ms: an order
   * placed 1,000,000 ms after another gets the same order id, and cancelling it cancels both.
   */
  lemma DemoOrderIdRepeats(symbol: string, side: string, quantity: real, iso: int -> string)
    ensures DemoOrderId(123456) == DemoOrderId(1123456)
    ensures var first := NewOrder(symbol, side, "LIMIT", quantity, Some(1.0), 123456, iso);
      var second := NewOrder(symbol, side, "LIMIT", quantity, Some(1.0), 1123456, iso);
      var after := CancelMatching([second, first], second.orderId.value);
      after[0].status == CANCELED && after[1].status == CANCELED
  {
    ClockTexts();
    var id := DemoOrderId(123456);
    assert id == DemoOrderId(1123456) by {
      assert TakeLast("123456", 6) == "123456";
      assert TakeLast("1123456", 6) == "123456";
    }
  }

  lemma ClockTexts()
    ensures DecimalText(123456) == "123456"
    ensures DecimalText(1123456) == "1123456"
  {
    assert DecimalText(1) == "1";
    assert DecimalText(12) == "12";
    assert DecimalText(123) == "123";
    assert DecimalText(1234) == "1234";
    assert DecimalText(12345) == "12345";
    assert DecimalText(123456) == "123456";
    assert DecimalText(11) == "11";
    assert DecimalText(112) == "112";
    assert DecimalText(1123) == "1123";
    assert DecimalText(11234) == "11234";
    assert DecimalText(112345) == "112345";
  }

  /** The intended order id: `DEMO` followed by the whole millisecond clock. */
  function UniqueDemoOrderId(now: nat): (id: string)
    ensures |id| == 4 + |DecimalText(now)|
    ensures id[..4] == ORDER_ID_PREFIX && id[4..] == DecimalText(now)
  {
    ORDER_ID_PREFIX + DecimalText(now)
  }

  /** With the whole clock in it, orders placed at different instants have different order ids. */
  lemma UniqueDemoOrderIdsDiffer(m: nat, n: nat)
    requires m != n
    ensures UniqueDemoOrderId(m) != UniqueDemoOrderId(n)
  {
    if UniqueDemoOrderId(m) == UniqueDemoOrderId(n) {
      DecimalTextInjective(m, n);
    }
  }

  /** The order a demo placement creates at time `now` (ms since the epoch). */
  function NewOrder(symbol: string, side: string, orderType: string, quantity: real,
                    price: Option<real>, now: nat, iso: int -> string): (o: Order)
    ensures o.status == (if orderType == MARKET then FILLED else OPEN)
    ensures o.filledQuantity == (if orderType == MARKET then quantity else 0.0)
    ensures o.price.None? <==> price.None? || price.value == 0.0
    ensures o.price.Some? ==> o.price == price
    ensures o.symbol == symbol && o.side == side && o.orderType == orderType && o.quantity == quantity
    ensures o.id == ID_PREFIX + DecimalText(now)
    ensures o.orderId == Some(DemoOrderId(now))
    ensures o.createdAt == iso(now)
  {
    Order(
      ID_PREFIX + DecimalText(now),
      Some(DemoOrderId(now)),
      symbol, side, orderType, quantity,
      if price.Some? && price.value != 0.0 then price else None,
      if orderType == MARKET then FILLED else OPEN,
      if orderType == MARKET then quantity else 0.0,
      iso(now))
  }

  /** Orders placed at different instants get different ids. */
  lemma NewOrderIdsDiffer(a: Order, b: Order, m: nat, n: nat)
    requires a.id == ID_PREFIX + DecimalText(m) && b.id == ID_PREFIX + DecimalText(n)
    requires m != n
    ensures a.id != b.id
  {
    if a.id == b.id {
      assert DecimalText(m) == a.id[5..] == b.id[5..] == DecimalText(n);
      DecimalTextInjective(m, n);
    }
  }

  /** `prev.map(o => o.orderId === orderId ? {...o, status: 'CANCELED'} : o)`. */
  function CancelMatching(orders: seq<Order>, orderId: string): (r: seq<Order>)
    ensures |r| == |orders|
    ensures forall i :: 0 <= i < |orders| && orders[i].orderId == Some(orderId) ==>
      r[i] == orders[i].(status := CANCELED)
    ensures forall i :: 0 <= i < |orders| && orders[i].orderId != Some(orderId) ==> r[i] == orders[i]
  {
    if orders == [] then []
    else [if orders[0].orderId == Some(orderId) then orders[0].(status := CANCELED) else orders[0]]
         + CancelMatching(orders[1..], orderId)
  }

  /** Cancelling an order id the book does not hold leaves the book identical. */
  lemma CancelUnknownIsIdentity(orders: seq<Order>, orderId: string)
    requires forall i :: 0 <= i < |orders| ==> orders[i].orderId != Some(orderId)
    ensures CancelMatching(orders, orderId) == orders
  {
  }

  /** Cancelling twice is cancelling once. */
  lemma CancelIdempotent(orders: seq<Order>, orderId: string)
    ensures CancelMatching(CancelMatching(orders, orderId), orderId) == CancelMatching(orders, orderId)
  {
  }

  /** No terminal-state guard: a FILLED order with the id becomes CANCELED. */
  lemma CancelOverwritesFilled(orders: seq<Order>, orderId: string, i: nat)
    requires i < |orders| && orders[i].orderId == Some(orderId) && orders[i].status == FILLED
    ensures CancelMatching(orders, orderId)[i].status == CANCELED
    ensures CancelMatching(orders, orderId)[i].filledQuantity == orders[i].filledQuantity
  {
  }

  /** The state of one `useDemoMode` hook instance. */
  class DemoSource {
    var prices: seq<PriceTicker>
    var balance: AccountBalance
    var positions: seq<Position>
    var orders: seq<Order>
    var isLoading: bool

    constructor (now: int, iso: int -> string)
      ensures prices == DEMO_PRICES && balance == DEMO_BALANCE && positions == DEMO_POSITIONS
      ensures orders == DemoOrders(now, iso) && !isLoading
    {
      prices, balance, positions := DEMO_PRICES, DEMO_BALANCE, DEMO_POSITIONS;
      orders := DemoOrders(now, iso);
      isLoading := false;
    }

    /** The demo source is connected whatever its state. */
    function IsConnected(): (b: bool)
      ensures b
    {
      true
    }

    /** What the hook returns: its own state, connected and in demo mode. */
    function Exposed(): (s: Snapshot)
      reads this
      ensures s.isConnected && s.isDemoMode
      ensures s.prices == prices && s.balance == Some(balance) && s.positions == positions
      ensures s.orders == orders && s.isLoading == isLoading
    {
      Snapshot(prices, Some(balance), positions, orders, isLoading, IsConnected(), true)
    }

    /** `placeOrder`: exactly one order is prepended; nothing else in the book changes. */
    method PlaceOrder(symbol: string, side: string, orderType: string, quantity: real,
                      price: Option<real>, now: nat, iso: int -> string)
      returns (ack: OrderAck)
      modifies this`orders, this`isLoading
      ensures |orders| == |old(orders)| + 1
      ensures orders[0] == NewOrder(symbol, side, orderType, quantity, price, now, iso)
      ensures orders[1..] == old(orders)
      ensures ack == OrderAck(orders[0].orderId.value, orders[0].status)
      ensures !isLoading
    {
      isLoading := true;
      var o := NewOrder(symbol, side, orderType, quantity, price, now, iso);
      orders := [o] + orders;
      isLoading := false;
      ack := OrderAck(o.orderId.value, o.status);
    }

    /** `cancelOrder`: every order with the id is marked CANCELED; the symbol plays no part. */
    method CancelOrder(symbol: string, orderId: string)
      modifies this`orders, this`isLoading
      ensures orders == CancelMatching(old(orders), orderId)
      ensures !isLoading
    {
      isLoading := true;
      orders := CancelMatching(orders, orderId);
      isLoading := false;
    }
  }
}

=== FILE: use_trading_data.dfy ===
/**
 * The mode arbiter (src/hooks/useTradingData.ts): a LIVE/DEMO switch with a persisted
 * preference and a fallback timer that moves a disconnected LIVE session to DEMO after
 * 10 seconds. Time advances by discrete `Elapse` events; the stored preference is one
 * optional string.
 */
module UseTradingData {
  import opened Wrappers
  import opened Views
  import opened UseBinance
  import opened UseDemoMode

  const FALLBACK_DELAY_MS: nat := 10000

  /** `String(enabled)`. */
  function StoredText(enabled: bool): (s: string)
    ensures s == "true" <==> enabled
  {
    if enabled then "true" else "false"
  }

  /** The initial mode: DEMO when nothing is stored, otherwise DEMO iff the stored text is "true". */
  function InitialMode(stored: Option<string>): (demo: bool)
    ensures stored.None? ==> demo
    ensures stored.Some? ==> (demo <==> stored.value == "true")
  {
    stored.None? || stored.value == "true"
  }

  /** Writing a preference and reading it back gives the preference. */
  lemma StoredPreferenceRoundTrip(enabled: bool)
    ensures InitialMode(Some(StoredText(enabled))) == enabled
  {
  }

  /**
   * What the arbiter depends on: its mode, the stored preference, the two inputs taken from
   * the live source, the clock, and the instant a pending fallback timer fires.
   */
  datatype ArbiterState = ArbiterState(
    demoMode: bool,
    stored: Option<string>,
    connected: bool,
    priceCount: nat,
    now: nat,
    deadline: Option<nat>)

  datatype Event =
    | SetDemoMode(enabled: bool)              // the user's toggle
    | SourceChanged(connected: bool, priceCount: nat)  // the live source re-rendered
    | Elapse(ms: nat)                         // time passes

  /** The condition under which the effect arms the fallback timer. */
  predicate ShouldArm(demoMode: bool, connected: bool, priceCount: nat) {
    !demoMode && !connected && priceCount == 0
  }

  /** The effect run after its dependencies changed: any pending timer is dropped first. */
  function Rearm(s: ArbiterState): (r: ArbiterState)
    ensures r.demoMode == s.demoMode && r.stored == s.stored && r.now == s.now
    ensures r.connected == s.connected && r.priceCount == s.priceCount
    ensures r.deadline.Some? <==> ShouldArm(s.demoMode, s.connected, s.priceCount)
    ensures r.deadline.Some? ==> r.deadline.value == s.now + FALLBACK_DELAY_MS
  {
    s.(deadline := if ShouldArm(s.demoMode, s.connected, s.priceCount) then Some(s.now + FALLBACK_DELAY_MS) else None)
  }

  /** A timer is pending exactly when the arm condition holds, and it lies in the next 10 s. */
  predicate Valid(s: ArbiterState) {
    && (s.deadline.Some? <==> ShouldArm(s.demoMode, s.connected, s.priceCount))
    && (s.deadline.Some? ==> s.now < s.deadline.value <= s.now + FALLBACK_DELAY_MS)
  }

  /** The mounted hook: the live source starts disconnected with no prices. */
  function Init(stored: Option<string>, now: nat): (s: ArbiterState)
    ensures Valid(s)
    ensures s.demoMode == InitialMode(stored) && s.stored == stored
    ensures s.deadline.Some? <==> !InitialMode(stored)
  {
    Rearm(ArbiterState(InitialMode(stored), stored, false, 0, now, None))
  }

  /**
   * One event. A dependency that does not change does not rerun the effect, so an unchanged
   * mode or unchanged live inputs leave a pending timer alone. The timer callback tests the
   * connection flag captured when it was armed, which was false, so a firing timer always
   * switches to DEMO.
   */
  function Step(s: ArbiterState, e: Event): (r: ArbiterState)
    ensures Valid(s) ==> Valid(r)
    ensures r.now >= s.now
    ensures r.demoMode && !s.demoMode ==> e == SetDemoMode(true) || (e.Elapse? && s.deadline.Some?)
    ensures !r.demoMode && s.demoMode ==> e == SetDemoMode(false)
    ensures e.SetDemoMode? ==> r.demoMode == e.enabled && r.stored == Some(StoredText(e.enabled))
    ensures !e.Elapse? ==> r.now == s.now
    ensures e.SourceChanged? ==> r.connected == e.connected && r.priceCount == e.priceCount
    ensures !e.SourceChanged? ==> r.connected == s.connected && r.priceCount == s.priceCount
    ensures e.Elapse? && !(s.deadline.Some? && s.now + e.ms >= s.deadline.value) ==> r == s.(now := s.now + e.ms)
    ensures e.SetDemoMode? && e.enabled != s.demoMode ==>
      && (r.deadline.Some? <==> ShouldArm(e.enabled, s.connected, s.priceCount))
      && (r.deadline.Some? ==> r.deadline.value == s.now + FALLBACK_DELAY_MS)
  {
    match e
    case SetDemoMode(b) =>
      var t := s.(stored := Some(StoredText(b)));
      if b == s.demoMode then t else Rearm(t.(demoMode := b))
    case SourceChanged(c, n) =>
      if c == s.connected && n == s.priceCount then s
      else Rearm(s.(connected := c, priceCount := n))
    case Elapse(ms) =>
      var t := s.now + ms;
      if s.deadline.Some? && t >= s.deadline.value then
        s.(demoMode := true, stored := Some(StoredText(true)), now := t, deadline := None)
      else s.(now := t)
  }

  function Run(s: ArbiterState, trace: seq<Event>): ArbiterState
    decreases |trace|
  {
    if trace == [] then s else Run(Step(s, trace[0]), trace[1..])
  }

  /** Every state reachable from a valid one is valid. */
  lemma {:induction false} RunPreservesValid(s: ArbiterState, trace: seq<Event>)
    requires Valid(s)
    ensures Valid(Run(s, trace))
    decreases |trace|
  {
    if trace != [] {
      RunPreservesValid(Step(s, trace[0]), trace[1..]);
    }
  }

  /** DEMO is never left on its own: only the user's `setDemoMode(false)` returns to LIVE. */
  lemma {:induction false} DemoIsSticky(s: ArbiterState, trace: seq<Event>)
    requires s.demoMode
    requires forall i :: 0 <= i < |trace| ==> trace[i] != SetDemoMode(false)
    ensures Run(s, trace).demoMode
    decreases |trace|
  {
    if trace != [] {
      DemoIsSticky(Step(s, trace[0]), trace[1..]);
    }
  }

  /** While the live source is connected, time passing never changes the mode. */
  lemma NoFallbackWhileConnected(s: ArbiterState, ms: nat)
    requires Valid(s) && s.connected
    ensures Step(s, Elapse(ms)) == s.(now := s.now + ms)
  {
  }

  /**
   * A change of the live inputs drops a pending timer and arms a fresh one exactly when the
   * new inputs meet the arm condition.
   */
  lemma ChangeRestartsTimer(s: ArbiterState, c: bool, n: nat)
    requires Valid(s) && (c != s.connected || n != s.priceCount)
    ensures var r := Step(s, SourceChanged(c, n));
      && (s.deadline.Some? ==> r.deadline.None?)
      && (r.deadline.Some? <==> ShouldArm(s.demoMode, c, n))
      && (r.deadline.Some? ==> r.deadline.value == s.now + FALLBACK_DELAY_MS)
  {
  }

  function Elapsed(trace: seq<Event>): nat
    requires forall i :: 0 <= i < |trace| ==> trace[i].Elapse?
  {
    if trace == [] then 0 else trace[0].ms + Elapsed(trace[1..])
  }

  /**
   * With a timer pending and nothing but time passing, the session is in DEMO (and "true" is
   * stored) once the remaining delay has elapsed.
   */
  lemma {:induction false} FallbackAfterQuietPeriod(s: ArbiterState, trace: seq<Event>)
    requires Valid(s) && s.deadline.Some?
    requires forall i :: 0 <= i < |trace| ==> trace[i].Elapse?
    requires s.now + Elapsed(trace) >= s.deadline.value
    ensures Run(s, trace).demoMode
    ensures Run(s, trace).stored == Some("true")
    decreases |trace|
  {
    var r := Step(s, trace[0]);
    if r.demoMode {
      assert r.stored == Some("true");
      QuietKeepsPreference(r, trace[1..]);
      DemoIsSticky(r, trace[1..]);
    } else {
      FallbackAfterQuietPeriod(r, trace[1..]);
    }
  }

  /**
   * Before a pending timer is due, time passing changes nothing but the clock: the mode, the
   * stored preference and the deadline stay as they were.
   */
  lemma {:induction false} NoFallbackBeforeDeadline(s: ArbiterState, trace: seq<Event>)
    requires s.deadline.Some?
    requires forall i :: 0 <= i < |trace| ==> trace[i].Elapse?
    requires s.now + Elapsed(trace) < s.deadline.value
    ensures Run(s, trace) == s.(now := s.now + Elapsed(trace))
    decreases |trace|
  {
    if trace != [] {
      var r := Step(s, trace[0]);
      assert r == s.(now := s.now + trace[0].ms);
      NoFallbackBeforeDeadline(r, trace[1..]);
    }
  }

  /** Time passing in DEMO changes neither the mode nor the stored preference. */
  lemma {:induction false} QuietKeepsPreference(s: ArbiterState, trace: seq<Event>)
    requires s.demoMode && s.deadline.None?
    requires forall i :: 0 <= i < |trace| ==> trace[i].Elapse?
    ensures Run(s, trace).stored == s.stored
    decreases |trace|
  {
    if trace != [] {
      QuietKeepsPreference(Step(s, trace[0]), trace[1..]);
    }
  }

  /** A fresh LIVE session that never connects is in DEMO after ten quiet seconds. */
  lemma FreshLiveSessionFallsBack(stored: Option<string>, now: nat, trace: seq<Event>)
    requires !InitialMode(stored)
    requires forall i :: 0 <= i < |trace| ==> trace[i].Elapse?
    requires Elapsed(trace) >= FALLBACK_DELAY_MS
    ensures Run(Init(stored, now), trace).demoMode
    ensures Run(Init(stored, now), trace).stored == Some("true")
  {
    FallbackAfterQuietPeriod(Init(stored, now), trace);
  }

  /** The context value: the whole snapshot of the source the mode selects. */
  function Select(demoMode: bool, demo: Snapshot, live: Snapshot): (r: Snapshot)
    ensures r.isDemoMode == demoMode
    ensures demoMode ==> r == demo.(isDemoMode := true)
    ensures !demoMode ==> r == live.(isDemoMode := false)
  {
    if demoMode then demo.(isDemoMode := true) else live.(isDemoMode := false)
  }

  /** The state of one `useTradingData` hook instance. */
  class ModeArbiter {
    var demoMode: bool
    var stored: Option<string>
    var connected: bool
    var priceCount: nat
    var now: nat
    var deadline: Option<nat>

    function State(): ArbiterState
      reads this
    {
      ArbiterState(demoMode, stored, connected, priceCount, now, deadline)
    }

    constructor (storedPreference: Option<string>, clock: nat)
      ensures State() == Init(storedPreference, clock) && Valid(State())
    {
      var s := Init(storedPreference, clock);
      demoMode, stored, connected, priceCount := s.demoMode, s.stored, s.connected, s.priceCount;
      now, deadline := s.now, s.deadline;
    }

    /** `setDemoMode`: persist `String(enabled)`, then set the mode. */
    method SetDemoMode(enabled: bool)
      requires Valid(State())
      modifies this
      ensures State() == Step(old(State()), Event.SetDemoMode(enabled)) && Valid(State())
      ensures demoMode == enabled && InitialMode(stored) == enabled
    {
      stored := Some(StoredText(enabled));
      if enabled != demoMode {
        demoMode := enabled;
        deadline := if ShouldArm(demoMode, connected, priceCount) then Some(now + FALLBACK_DELAY_MS) else None;
      }
    }

    /** The live source re-rendered with these inputs. */
    method SourceChanged(c: bool, n: nat)
      requires Valid(State())
      modifies this
      ensures State() == Step(old(State()), Event.SourceChanged(c, n)) && Valid(State())
    {
      if c != connected || n != priceCount {
        connected, priceCount := c, n;
        deadline := if ShouldArm(demoMode, connected, priceCount) then Some(now + FALLBACK_DELAY_MS) else None;
      }
    }

    /** Time passes; a pending timer that falls due switches to DEMO and persists "true". */
    method Elapse(ms: nat)
      requires Valid(State())
      modifies this
      ensures State() == Step(old(State()), Event.Elapse(ms)) && Valid(State())
    {
      now := now + ms;
      if deadline.Some? && now >= deadline.value {
        demoMode, stored, deadline := true, Some(StoredText(true)), None;
      }
    }

    /** What the application sees: the demo source's state in DEMO, the live one's in LIVE. */
    function Exposed(demo: DemoSource, live: LiveSource): (r: Snapshot)
      reads this, demo, live
      ensures r.isDemoMode == demoMode
      ensures demoMode ==> (
        && r.isConnected && r.orders == demo.orders && r.prices == demo.prices
        && r.positions == demo.positions && r.balance == Some(demo.balance) && r.isLoading == demo.isLoading)
      ensures !demoMode ==> (
        && r.isConnected == live.isConnected && r.orders == live.orders && r.prices == live.prices
        && r.positions == live.positions && r.balance == live.balance && r.isLoading == live.isLoading)
    {
      Select(demoMode, demo.Exposed(), live.Exposed())
    }
  }
}

=== FILE: views.dfy ===
/** The client-side records every data source exposes (the interfaces of useBinance.ts). */
module Views {
  import opened Wrappers
  import opened Rows

  datatype PriceTicker = PriceTicker(
    symbol: string,
    price: real,
    priceChange: real,
    priceChangePercent: real,
    high24h: real,
    low24h: real,
    volume24h: real)

  datatype AccountBalance = AccountBalance(
    totalBalance: real,
    availableBalance: real,
    marginBalance: real,
    unrealizedPnl: real)

  datatype Position = Position(
    id: string,
    symbol: string,
    side: PositionSide,
    size: real,
    entryPrice: real,
    markPrice: real,
    unrealizedPnl: real,
    leverage: int)

  datatype Order = Order(
    id: string,
    orderId: Option<string>,
    symbol: string,
    side: string,
    orderType: string,
    quantity: real,
    price: Option<real>,
    status: string,
    filledQuantity: real,
    createdAt: string)

  /** What the application observes of the active data source. */
  datatype Snapshot = Snapshot(
    prices: seq<PriceTicker>,
    balance: Option<AccountBalance>,
    positions: seq<Position>,
    orders: seq<Order>,
    isLoading: bool,
    isConnected: bool,
    isDemoMode: bool)

  const OPEN := "OPEN"
  const FILLED := "FILLED"
  const CANCELED := "CANCELED"
  const MARKET := "MARKET"
}

=== FILE: wrappers.dfy ===
/** Optional values and results with an error message, used throughout the model. */
module Wrappers {

  /** A value that may be absent (`undefined` or `null` in the source). */
  datatype Option<+T> = None | Some(value: T) {
    function GetOr(default: T): T {
      match this
      case Some(v) => v
      case None => default
    }
  }

  /** The outcome of an operation that either yields a value or fails with a message. */
  datatype Result<+T> = Success(value: T) | Failure(error: string)
}
